=== FILE: README.md ===
# Heroes Cards room: a verified model of the session engine

This project models the game-session engine of the Heroes Cards server, the
`HeroesCardsRoom` class in `src/HeroesCardsRoom.ts`. Two seats play a wagering
card game through a fixed sequence of phases:

1. INIT;
2. BETTING;
3. INITIAL_CARD_SELECTION and the initial battle;
4. nine turns (turns 2 to 10) of own selection, rival selection and battle,
   each followed by a power choice when the acting seat wins;
5. round end: bet settlement (the ROUND_END value declared at
   `src/types.ts:9` is never assigned);
6. the next round or GAME_OVER, and a restart on continue.

The model has four modules:

- `types.dfy` (module `Types`) holds the state shapes of `src/types.ts`: the phase
  enumeration, the per-seat record, the pending turn, the battle result, the
  session state and the special card ids (Joker 0, Dr. Manhattan 67).
- `rules.dfy` (module `Rules`) holds the pure helpers of the room and the
  counting facts about decks and slot maps:
  - card power, action gating, battle and round comparisons;
  - settlement amounts, the game-over test and the turn order.
- `session.dfy` (module `Session`) gives every handler as a pure transition
  from the state before a message to the state after it. It also holds:
  - the laws each transition obeys;
  - the session invariant `Consistent`;
  - one lemma per transition showing that the transition keeps the invariant.

  The invariant `Consistent` covers:
  - the 68 cards are partitioned over deck, hands and revealed cards;
  - hand and revealed slots are disjoint, and all ten slots are covered once dealt;
  - credits and bets stay within bounds;
  - the turn counter stays in 1..10;
  - what each phase requires of bets, the pending turn, the battle result and
    the acting seat.
- `room.dfy` (module `Room`) is the class `HeroesCardsRoom`. It has one field per
  field of the session state. Every handler is a method that changes those fields
  step by step, as the source does:
  - the deck array is built and shuffled in place;
  - cards are popped into the hands one slot at a time;
  - `endRound` loops over the seats.

  Each method is proved to move the fields exactly as the matching `Session`
  transition does. The message callbacks (`OnPlaceBet`, `OnPlayCard`,
  `OnPowerChoice`, `OnContinueGame`, `OnBothSeatsJoined`) also preserve
  `Valid()`, which is the session invariant on the fields.

Randomness is an input:
- The Fisher-Yates index at each step is any value in 0..i, chosen with `:|`.
- The joker roll is any value in 1..68.
- The coin for a tied initial battle is either seat.
- Handlers that draw return the values they drew (a `Deal` and a coin) as ghost
  results, so their contracts can name the transition that was taken.

Where the code departs from its own comment (turn order) or from the usual
wagering rule (settlement), the model follows the code:
- Settlement: the round winner gains its **own** bet, not the loser's
  (`Rules.CreditChange`, `src/HeroesCardsRoom.ts:449-454`).
- Turn order: the next actor is computed from the **current** actor, not from the
  seat that won the initial battle (`src/HeroesCardsRoom.ts:416-423`). The
  initial winner therefore acts on turns 2, 5, 6, 9 and 10, not on the even
  turns. `Rules.ActorAtClosedForm` proves this order, and
  `Rules.TurnOrderVersusComment` proves it agrees with the comment's order on
  exactly turns 2, 3, 6, 7 and 10.
- Continue: `handleContinueGame` checks only the flag. `initializeGame` never
  clears the flag and leaves the pending turn, the battle result and the
  current player as they were. A later continue message therefore restarts the
  game from any phase.
- Joker: a slot holding the Joker (card 0) is rejected like an empty slot, so
  the Joker is never played (`src/HeroesCardsRoom.ts:211`, `:278`, `:306`).
  Each of turns 2 to 10 turns up one card from each seat's hand, so with the
  initial pick a seat needs all ten of its cards to be playable. By that
  count, a seat dealt the Joker, or one that picked twice in the initial
  selection, is left by turn 10 at the latest with no selectable card: only
  the Joker, or nothing. A seat with both is left that way on turn 9.
  `Session.JokerOnlyHandStalls` proves that from then on no selection of that
  seat's cards changes anything; an empty hand meets its premise too. That
  turn then cannot complete, and the round does not end. The count itself is
  not part of the invariant.
- Repeated initial selection: a seat that selects twice during the initial
  selection overwrites its pending choice and reveals a second card.
- Zero bets: a bet of 0 is accepted, but it never moves the game past BETTING.

## Model

| member | source | states |
|---|---|---|
| Rules.CardPower | src/HeroesCardsRoom.ts:145-151 | a card's power is its id, except the Joker, whose power is the round's joker power; with a roll in 1..68 every power is in 1..68 |
| Rules.ActionAllowed | src/HeroesCardsRoom.ts:153-175 | in both directions: only seats 1 and 2 act; bets only in BETTING; cards only in the three selection phases, and outside the initial one only by the acting seat; power choice only in POWER_CHOICE by the acting seat; continue only when the flag is set |
| Rules.Other | src/HeroesCardsRoom.ts:305 | the other seat of a seat is a seat and differs from it |
| Rules.CountingCards | src/HeroesCardsRoom.ts:116-119 | the ids 0..67 written in order hold each id exactly once |
| Rules.PopOneMore | src/HeroesCardsRoom.ts:138-141 | popping one more card puts the card now at the end of the deck into the next slot and changes no other slot |
| Rules.PoppedCards | src/HeroesCardsRoom.ts:130-143 | the ten popped slots hold exactly the last ten cards of the deck |
| Rules.SlotCardsAdd | src/HeroesCardsRoom.ts:218 | putting a card into an empty slot adds exactly that card to the seat's cards |
| Rules.SlotCardsRemove | src/HeroesCardsRoom.ts:217 | deleting a slot removes exactly the card it held |
| Rules.InitialStarter | src/HeroesCardsRoom.ts:250-258 | the seat with the strictly stronger initial card starts; on equal power, the coin's seat starts |
| Rules.BattleWinner | src/HeroesCardsRoom.ts:349-355 | in both directions: the acting seat wins iff its power is higher, the rival iff the rival's is higher, and 0 iff the powers are equal |
| Rules.PowerGap | src/HeroesCardsRoom.ts:357 | the gap is never negative and is one of the two differences |
| Rules.Distance | src/HeroesCardsRoom.ts:436-437 | distance from 34 is never negative and is one of the two differences |
| Rules.RoundWinner | src/HeroesCardsRoom.ts:439-444 | in both directions: seat 1 wins iff it is strictly closer to 34, seat 2 iff it is, and 0 iff the distances are equal |
| Rules.CreditChange | src/HeroesCardsRoom.ts:447-459 | a seat gains its own bet iff it won the round (or bet 0), and otherwise loses its own bet |
| Rules.GameOverVerdict | src/HeroesCardsRoom.ts:477-488 | no verdict iff both balances are strictly between 0 and 1000; a threshold win goes to a seat at 1000 or more; a bust goes to the seat whose rival is at 0 or below; seat 1 is tested first |
| Rules.NextActor | src/HeroesCardsRoom.ts:413-423 | the next actor is a seat; for next turns 2..10 it is the current actor exactly when the next turn number is even |
| Rules.ActorAtClosedForm | src/HeroesCardsRoom.ts:404-431 | with seat w winning the initial battle, the code's order gives turns 2, 5, 6, 9, 10 to w and turns 3, 4, 7, 8 to the other seat |
| Rules.TurnOrderVersusComment | src/HeroesCardsRoom.ts:416-423 | the code's order matches the commented order (w on even turns) exactly on turns 2, 3, 6, 7 and 10 |
| Session.DealtCards | src/HeroesCardsRoom.ts:130-143 | the 48 cards left in the deck and the two dealt hands together hold every card of the shuffled deck, each once |
| Session.DealConserves | src/HeroesCardsRoom.ts:130-143 | after a deal, 48 cards stay in the deck; each seat holds exactly slots 0..9 and nothing revealed; the joker power is the rolled one; the 68 cards are conserved |
| Session.ConservedDistinct | src/HeroesCardsRoom.ts:130-143 | while the cards are conserved, distinct slots of a hand hold distinct cards, and so do distinct revealed slots |
| Session.RevealConserves | src/HeroesCardsRoom.ts:283-284 | turning a card up keeps the seat's cards: the card moves from hand to revealed |
| Session.RevealKeepsPlayer | src/HeroesCardsRoom.ts:311-312 | turning a card up keeps the seat's slots disjoint and all ten covered |
| Session.WithPlayerKeepsCore | src/HeroesCardsRoom.ts:396-398 | replacing a seat's record by a consistent one with the same cards keeps the core invariant |
| Session.RevealKeepsCore | src/HeroesCardsRoom.ts:217-218 | turning up a selectable card keeps the core invariant; only that seat's hand and revealed cards change, by exactly that slot |
| Session.PlaceBetLaw | src/HeroesCardsRoom.ts:177-193 | a bet outside BETTING, from a non-seat, or for an amount below 0 or above the credits changes nothing; otherwise only that seat's bet changes, and the phase moves to INITIAL_CARD_SELECTION exactly when both bets are positive |
| Session.SelectInitialLaw | src/HeroesCardsRoom.ts:210-242 | an initial selection of an empty or Joker slot changes nothing; otherwise only that seat's record changes, with exactly that card moved from hand to the same revealed slot; seat 1's card fills the own half and seat 2's the rival half of the pending turn, replacing an earlier choice; the initial battle is fought exactly when both halves are set |
| Session.SelectOwnLaw | src/HeroesCardsRoom.ts:277-302 | an own selection of an empty or Joker slot changes nothing; otherwise only the seat's record changes, with exactly that card moved from hand to the same revealed slot; the card and slot become the pending own choice; the phase becomes CARD_SELECTION_RIVAL; nothing else changes |
| Session.SelectRivalLaw | src/HeroesCardsRoom.ts:304-329 | a rival selection of an empty or Joker slot of the other seat changes nothing; otherwise exactly that card moves from the other seat's hand to the same revealed slot, becomes the pending rival choice, and the battle is fought; before turn 10 the seats and deck after the message are those after that one move |
| Session.JokerOnlyHandStalls | src/HeroesCardsRoom.ts:278 | once every card left in a seat's hand is the Joker, neither that seat's own selection nor the other seat's rival selection of it changes anything |
| Session.InitialBattleLaw | src/HeroesCardsRoom.ts:244-275 | the strictly stronger initial card's seat starts (either seat on a tie); turn 2, empty pending turn, CARD_SELECTION_OWN; seats and deck unchanged |
| Session.BattleLaw | src/HeroesCardsRoom.ts:331-386 | in both directions: the battle winner is the actor iff its power is higher, the rival iff the rival's is higher, and 0 iff equal; the gap is the absolute difference; POWER_CHOICE iff the actor wins, otherwise the turn advances |
| Session.NextTurnLaw | src/HeroesCardsRoom.ts:404-431 | the pending turn is always cleared; from turn 10 the round ends; otherwise the turn grows by one, the actor is kept iff the new turn is even, and the phase returns to CARD_SELECTION_OWN with seats and deck unchanged |
| Session.SettlementLaw | src/HeroesCardsRoom.ts:433-462 | the seat strictly closer to 34 gains its own bet and the other loses its own; on equal distance both lose their own; a bet within the credits keeps them at or above 0; nothing else in the records changes |
| Session.EndRoundLaw | src/HeroesCardsRoom.ts:433-491 | after settlement the game is over (phase GAME_OVER, continue flag set) exactly when the verdict exists; otherwise the round number grows by one, turn 1, points and bets 0, pending turn empty, BETTING, settled credits, fresh deal, and every other field (current player, battle result, continue flag) carried over |
| Session.CreatedConsistent | src/HeroesCardsRoom.ts:25-49 | the freshly created room satisfies the invariant |
| Session.DealKeepsConsistent | src/HeroesCardsRoom.ts:130-143 | a deal onto seats with credits in range and no bets gives a consistent BETTING state |
| Session.InitializePreserves | src/HeroesCardsRoom.ts:101-113 | initializing the game keeps the invariant |
| Session.ContinuePreserves | src/HeroesCardsRoom.ts:507-511 | a continue message keeps the invariant |
| Session.PlaceBetPreserves | src/HeroesCardsRoom.ts:177-193 | a bet message keeps the invariant: bets within credits, at most one positive bet in BETTING, both positive afterwards |
| Session.BettingConsistent | src/HeroesCardsRoom.ts:186-189 | a BETTING state on turn 1 with at most one positive bet is consistent |
| Session.SelectionConsistent | src/HeroesCardsRoom.ts:186-189 | an INITIAL_CARD_SELECTION state on turn 1 with both bets positive is consistent |
| Session.StartNextRoundPreserves | src/HeroesCardsRoom.ts:513-529 | starting the next round from credits strictly between 0 and 1000 gives a consistent state |
| Session.EndRoundPreserves | src/HeroesCardsRoom.ts:433-491 | ending the round keeps the invariant, whether the game ends or goes on |
| Session.GameOverConsistent | src/HeroesCardsRoom.ts:493-505 | settling and stopping the game gives a consistent GAME_OVER state with the flag set and credits at or above 0 |
| Session.SettledRecords | src/HeroesCardsRoom.ts:461-462 | settlement changes only the credits, which stay at or above 0 when each bet is within its credits |
| Session.NextTurnPreserves | src/HeroesCardsRoom.ts:404-431 | advancing the turn keeps the invariant, and the next actor is the one the code's turn order gives for the new turn number |
| Session.SelectInitialPreserves | src/HeroesCardsRoom.ts:210-275 | an initial selection keeps the invariant; when it completes the initial battle, the starter becomes the new initial winner |
| Session.SelectOwnPreserves | src/HeroesCardsRoom.ts:277-302 | an own selection keeps the invariant |
| Session.SelectRivalPreserves | src/HeroesCardsRoom.ts:304-329 | a rival selection, with the battle it triggers, keeps the invariant |
| Session.ResolvePreserves | src/HeroesCardsRoom.ts:331-386 | resolving a battle keeps the invariant; POWER_CHOICE is entered only with a positive gap won by the actor |
| Session.PlayCardPreserves | src/HeroesCardsRoom.ts:195-208 | a play_card message keeps the invariant |
| Session.ChoosePowerPreserves | src/HeroesCardsRoom.ts:388-402 | a power_choice message keeps the invariant |
| Session.PowerAppliedPreserves | src/HeroesCardsRoom.ts:395-401 | applying the gap to the actor's points and advancing the turn keeps the invariant |
| Session.ConsistentIsWellFormed | src/HeroesCardsRoom.ts:393 | a consistent state has both seats, an acting seat, a pending own card in CARD_SELECTION_RIVAL and a battle result in POWER_CHOICE |
| Room.HeroesCardsRoom.constructor | src/HeroesCardsRoom.ts:25-49 | the room starts in the created state: INIT, round 1, turn 1, seat 1 current, two fresh records, empty deck; it satisfies the invariant |
| Room.HeroesCardsRoom.OnBothSeatsJoined | src/HeroesCardsRoom.ts:77-79 | once both seats are bound the game is initialized, and the invariant holds afterwards |
| Room.HeroesCardsRoom.InitializeGame | src/HeroesCardsRoom.ts:101-113 | fresh records, round 1, turn 1, BETTING, then a deal; nothing else changes |
| Room.HeroesCardsRoom.CreateAndShuffleDeck | src/HeroesCardsRoom.ts:115-128 | the result has 68 cards and is a permutation of 0..67 |
| Room.HeroesCardsRoom.DealCards | src/HeroesCardsRoom.ts:130-143 | the deck is a fresh permutation, the joker power a roll in 1..68, and both hands are dealt as `Session.DealCards` says |
| Room.HeroesCardsRoom.DealHand | src/HeroesCardsRoom.ts:134-141 | the seat's hand is emptied and refilled from the end of the deck, slot 0 getting the last card; its revealed cards are cleared; the deck loses ten cards |
| Room.HeroesCardsRoom.OnPlaceBet | src/HeroesCardsRoom.ts:51-53 | the place_bet callback performs `Session.PlaceBet` and keeps the invariant |
| Room.HeroesCardsRoom.HandlePlaceBet | src/HeroesCardsRoom.ts:177-193 | the fields move exactly as `Session.PlaceBet` says |
| Room.HeroesCardsRoom.OnPlayCard | src/HeroesCardsRoom.ts:55-57 | the play_card callback performs `Session.PlayCard`, returns the Dr. Manhattan reveal, and keeps the invariant |
| Room.HeroesCardsRoom.HandlePlayCard | src/HeroesCardsRoom.ts:195-208 | the fields move exactly as `Session.PlayCard` says, and the reveal is returned |
| Room.HeroesCardsRoom.HandleInitialCardSelection | src/HeroesCardsRoom.ts:210-242 | the fields move exactly as `Session.SelectInitial` says; the initial winner is recorded when the initial battle is fought |
| Room.HeroesCardsRoom.ProcessInitialBattle | src/HeroesCardsRoom.ts:244-275 | the fields move exactly as `Session.InitialBattle` says for the coin drawn |
| Room.HeroesCardsRoom.HandleOwnCardSelection | src/HeroesCardsRoom.ts:277-302 | the fields move exactly as `Session.SelectOwn` says |
| Room.HeroesCardsRoom.HandleRivalCardSelection | src/HeroesCardsRoom.ts:304-329 | the fields move exactly as `Session.SelectRival` says, and the reveal is the rival's hand after the selection |
| Room.HeroesCardsRoom.ProcessBattle | src/HeroesCardsRoom.ts:331-386 | the fields move exactly as `Session.ResolveBattle` says; when the actor's own card is Dr. Manhattan, the rival's current hand is returned |
| Room.HeroesCardsRoom.OnPowerChoice | src/HeroesCardsRoom.ts:59-61 | the power_choice callback performs `Session.ChoosePower` and keeps the invariant |
| Room.HeroesCardsRoom.HandlePowerChoice | src/HeroesCardsRoom.ts:388-402 | the fields move exactly as `Session.ChoosePower` says |
| Room.HeroesCardsRoom.NextTurn | src/HeroesCardsRoom.ts:404-431 | the fields move exactly as `Session.NextTurn` says |
| Room.HeroesCardsRoom.EndRound | src/HeroesCardsRoom.ts:433-491 | the fields move exactly as `Session.EndRound` says, and the returned verdict is `GameOverVerdict` of the settled credits |
| Room.HeroesCardsRoom.GameOver | src/HeroesCardsRoom.ts:493-505 | the phase is GAME_OVER and the continue flag is set |
| Room.HeroesCardsRoom.OnContinueGame | src/HeroesCardsRoom.ts:63-65 | the continue_game callback performs `Session.Continue` and keeps the invariant |
| Room.HeroesCardsRoom.HandleContinueGame | src/HeroesCardsRoom.ts:507-511 | the fields move exactly as `Session.Continue` says |
| Room.HeroesCardsRoom.StartNextRound | src/HeroesCardsRoom.ts:513-529 | the fields move exactly as `Session.StartNextRound` says |
| Room.HeroesCardsRoom.ResetCurrentTurn | src/HeroesCardsRoom.ts:531-540 | the pending turn is empty: nothing selected, no slots, no cards |

## Left out

- Room lifecycle and seat binding (`onJoin` counting, `onLeave`, `disconnect`, the session-to-seat table): the seat is a parameter of each handler. The branch of `onJoin` that starts the game is `OnBothSeatsJoined`.
- Outbound messages: broadcasts, phase-change messages, state syncs, unicasts and logging are I/O. Only their results are kept:
  - the Dr. Manhattan reveal is returned as `shown`;
  - the game-over verdict is returned by `EndRound`.
- Room.HeroesCardsRoom.GameOver: drops the winner and result parameters, which only feed the game-over broadcast; the verdict is returned by `EndRound` instead.
- `Math.random` and its floating-point arithmetic: the shuffle index, the joker roll and the coin are arbitrary values in their ranges. The model says nothing about their distribution.
- Message payloads are plain values: a bet amount is an `int`, a slot an `int`, a choice a `string`. JavaScript coercion of malformed payloads (non-numbers, fractional numbers) is not modelled.
- Integers are unbounded: credits, points and bets never reach JavaScript's safe-integer limit within the game's rules.
- Reading a missing key of a JavaScript object: the handlers require the state to have both seats (`Session.WellFormed`), which the invariant provides.
- src/index.ts (the HTTP server), src/schema.ts (unused schema declarations) and the compiled copies under dist/ are not part of this model.

=== FILE: room.dfy ===
/** The game room as the source writes it: a class whose fields are the session
    state, changed step by step by the message handlers. Every handler is
    proved to move the state exactly as the matching transition of module
    Session does, and the top-level handlers keep the session invariant. The
    random draws are made with `:|` and handed back as ghost results so that
    the transition they took can be named. */
module Room {
  import opened Types
  import opened Rules
  import Session

  class HeroesCardsRoom {
    var phase: Phase
    var currentPlayer: int
    var roundNumber: int
    var turnNumber: int
    var players: map<int, PlayerState>
    var battleResult: Option<BattleResult>
    var currentTurn: CurrentTurn
    var deck: seq<int>
    var waitingForContinue: bool
    var jokerPower: int
    /** The seat that won this round's initial battle; used by the proofs only. */
    ghost var initialWinner: int

    /** The fields as one session state. */
    ghost function State(): GameState
      reads this
    {
      GameState(phase, currentPlayer, roundNumber, turnNumber, players, battleResult,
                currentTurn, deck, waitingForContinue, jokerPower)
    }

    ghost predicate Valid()
      reads this
    {
      Session.Consistent(State(), initialWinner)
    }

    /** onCreate: the room starts in INIT with two fresh seat records. */
    constructor ()
      ensures State() == Session.Created()
      ensures Valid()
    {
      phase := Init;
      currentPlayer := 1;
      roundNumber := 1;
      turnNumber := 1;
      players := map[1 := Session.InitialPlayerState(), 2 := Session.InitialPlayerState()];
      battleResult := None;
      currentTurn := Session.EmptyTurn();
      deck := [];
      waitingForContinue := false;
      jokerPower := 0;
      initialWinner := 1;
      new;
      Session.CreatedConsistent(initialWinner);
    }

    /** The branch of onJoin taken once the second seat has bound: the game starts. */
    method OnBothSeatsJoined() returns (ghost d: Deal)
      requires Valid()
      modifies this`players, this`roundNumber, this`turnNumber, this`phase, this`deck, this`jokerPower
      ensures Session.ValidDeal(d)
      ensures State() == Session.InitializeGame(old(State()), d)
      ensures Valid()
    {
      ghost var s0 := State();
      Session.ConsistentIsWellFormed(s0, initialWinner);
      d := InitializeGame();
      Session.InitializePreserves(s0, initialWinner, d);
    }

    /** initializeGame: run when the second seat joins, and again on continue. */
    method InitializeGame() returns (ghost d: Deal)
      requires 1 in players && 2 in players
      modifies this`players, this`roundNumber, this`turnNumber, this`phase, this`deck, this`jokerPower
      ensures Session.ValidDeal(d)
      ensures State() == Session.InitializeGame(old(State()), d)
    {
      ghost var s0 := State();
      players := players[1 := Session.InitialPlayerState()];
      players := players[2 := Session.InitialPlayerState()];
      roundNumber := 1;
      turnNumber := 1;
      phase := Betting;
      assert State() == s0.(players := s0.players[1 := Session.InitialPlayerState()][2 := Session.InitialPlayerState()],
                            roundNumber := 1, turnNumber := 1, phase := Betting);
      d := DealCards();
    }

    /** createAndShuffleDeck: the ids 0..67 in order, then a Fisher-Yates
        shuffle whose index at each step is any of 0..i. */
    static method CreateAndShuffleDeck() returns (shuffled: seq<int>)
      ensures |shuffled| == DeckSize
      ensures IsFullDeck(multiset(shuffled))
    {
      var cards := new int[DeckSize];
      for i := 0 to DeckSize
        invariant forall k :: 0 <= k < i ==> cards[k] == k
      {
        cards[i] := i;
      }
      CountingCards(cards[..]);
      ghost var full := multiset(cards[..]);
      var i := DeckSize - 1;
      while i > 0
        invariant 0 <= i < DeckSize
        invariant multiset(cards[..]) == full
      {
        var j :| 0 <= j <= i;
        ghost var before := cards[..];
        cards[i], cards[j] := cards[j], cards[i];
        assert cards[..] == before[i := before[j]][j := before[i]];
        i := i - 1;
      }
      shuffled := cards[..];
    }

    /** dealCards: shuffle, roll the joker power in 1..68, then deal ten cards
        to seat 1 and ten to seat 2 off the end of the deck. */
    method DealCards() returns (ghost d: Deal)
      requires 1 in players && 2 in players
      modifies this`deck, this`jokerPower, this`players
      ensures Session.ValidDeal(d)
      ensures State() == Session.DealCards(old(State()), d)
    {
      deck := CreateAndShuffleDeck();
      ghost var shuffled := deck;
      var roll :| 1 <= roll <= DeckSize;
      jokerPower := roll;
      d := Deal(shuffled, roll);
      ghost var dealt1 := old(players)[1].(hand := HandFrom(shuffled), revealed := map[]);
      ghost var dealt2 := old(players)[2].(hand := HandFrom(shuffled[..DeckSize - HandSize]), revealed := map[]);
      for seat := 1 to 3
        invariant jokerPower == roll
        invariant deck == shuffled[..DeckSize - HandSize * (seat - 1)]
        invariant players == (if seat == 1 then old(players)
                              else if seat == 2 then old(players)[1 := dealt1]
                              else old(players)[1 := dealt1][2 := dealt2])
      {
        assert seat == 1 ==> deck == shuffled;
        DealHand(seat);
        assert deck == shuffled[..DeckSize - HandSize * seat];
      }
    }

    /** The inner loop of dealCards: empty the seat's hand and revealed cards,
        then pop one card into each of the slots 0..9. */
    method DealHand(seat: int)
      requires seat in players && |deck| >= HandSize
      modifies this`deck, this`players
      ensures deck == old(deck)[..|old(deck)| - HandSize]
      ensures players == old(players)[seat := old(players)[seat].(hand := HandFrom(old(deck)), revealed := map[])]
    {
      ghost var d0, p0 := deck, players[seat];
      players := players[seat := players[seat].(hand := map[])];
      players := players[seat := players[seat].(revealed := map[])];
      for slot := 0 to HandSize
        invariant deck == d0[..|d0| - slot]
        invariant players == old(players)[seat := p0.(hand := Popped(d0, slot), revealed := map[])]
      {
        var cardId := deck[|deck| - 1];
        assert cardId == d0[|d0| - (slot + 1)];
        deck := deck[..|deck| - 1];
        assert deck == d0[..|d0| - (slot + 1)];
        PopOneMore(d0, slot);
        players := players[seat := players[seat].(hand := players[seat].hand[slot := cardId])];
      }
    }

    /** The place_bet message callback registered by onCreate. */
    method OnPlaceBet(seat: int, amount: int)
      requires Valid()
      modifies this`players, this`phase
      ensures State() == Session.PlaceBet(old(State()), seat, amount)
      ensures Valid()
    {
      Session.PlaceBetPreserves(State(), initialWinner, seat, amount);
      HandlePlaceBet(seat, amount);
    }

    /** handlePlaceBet. */
    method HandlePlaceBet(seat: int, amount: int)
      requires Session.WellFormed(State())
      modifies this`players, this`phase
      ensures State() == Session.PlaceBet(old(State()), seat, amount)
    {
      if !ActionAllowed(phase, currentPlayer, waitingForContinue, seat, BetAction) {
        return;
      }
      if amount < 0 || amount > players[seat].credits {
        return;
      }
      players := players[seat := players[seat].(currentBet := amount)];
      if players[1].currentBet > 0 && players[2].currentBet > 0 {
        phase := InitialCardSelection;
      }
    }

    /** The play_card message callback registered by onCreate. */
    method OnPlayCard(seat: int, slot: int) returns (shown: Option<map<int, int>>, ghost coin: int, ghost d: Deal)
      requires Valid()
      modifies this
      ensures IsSeat(coin) && Session.ValidDeal(d)
      ensures State() == Session.PlayCard(old(State()), seat, slot, coin, d)
      ensures shown == Session.PlayCardReveal(old(State()), seat, slot)
      ensures initialWinner == Session.WinnerAfter(old(State()), State(), old(initialWinner))
      ensures Valid()
    {
      ghost var s0, w0 := State(), initialWinner;
      Session.ConsistentIsWellFormed(s0, w0);
      shown, coin, d := HandlePlayCard(seat, slot);
      Session.PlayCardPreserves(s0, w0, seat, slot, coin, d);
    }

    /** handlePlayCard: gate, then dispatch on the phase. Returns the hand the
        Dr. Manhattan card reveals to the sender, if any. */
    method HandlePlayCard(seat: int, slot: int) returns (shown: Option<map<int, int>>, ghost coin: int, ghost d: Deal)
      requires Session.WellFormed(State())
      modifies this
      ensures IsSeat(coin) && Session.ValidDeal(d)
      ensures State() == Session.PlayCard(old(State()), seat, slot, coin, d)
      ensures shown == Session.PlayCardReveal(old(State()), seat, slot)
      ensures initialWinner == Session.WinnerAfter(old(State()), State(), old(initialWinner))
    {
      shown, coin := None, 1;
      d := Session.SomeDeal();
      if !ActionAllowed(phase, currentPlayer, waitingForContinue, seat, PlayCardAction) {
        return;
      }
      if phase == InitialCardSelection {
        coin := HandleInitialCardSelection(seat, slot);
      } else if phase == CardSelectionOwn {
        HandleOwnCardSelection(seat, slot);
      } else if phase == CardSelectionRival {
        shown, d := HandleRivalCardSelection(seat, slot);
      }
    }

    /** handleInitialCardSelection: seat 1's card goes into the "own" half of
        the pending turn, seat 2's into the "rival" half. */
    method HandleInitialCardSelection(seat: int, slot: int) returns (ghost coin: int)
      requires Session.WellFormed(State()) && IsSeat(seat) && phase == InitialCardSelection
      modifies this`players, this`currentTurn, this`currentPlayer, this`turnNumber, this`phase, this`initialWinner
      ensures IsSeat(coin)
      ensures State() == Session.SelectInitial(old(State()), seat, slot, coin)
      ensures phase == CardSelectionOwn ==> initialWinner == currentPlayer
      ensures phase != CardSelectionOwn ==> initialWinner == old(initialWinner)
    {
      coin := 1;
      if slot !in players[seat].hand || players[seat].hand[slot] == Joker {
        return;
      }
      ghost var s0 := State();
      var cardId := players[seat].hand[slot];
      players := players[seat := players[seat].(hand := players[seat].hand - {slot})];
      players := players[seat := players[seat].(revealed := players[seat].revealed[slot := cardId])];
      assert players == s0.players[seat := Session.RevealSlot(s0.players[seat], slot)];
      if seat == 1 {
        currentTurn := currentTurn.(ownCardId := Some(cardId));
        currentTurn := currentTurn.(ownSlot := Some(slot));
      } else {
        currentTurn := currentTurn.(rivalCardId := Some(cardId));
        currentTurn := currentTurn.(rivalSlot := Some(slot));
      }
      assert State() == Session.WithPlayer(s0, seat, Session.RevealSlot(s0.players[seat], slot)).(currentTurn := currentTurn);
      if currentTurn.ownCardId.Some? && currentTurn.rivalCardId.Some? {
        coin := ProcessInitialBattle();
      }
    }

    /** processInitialBattle: the stronger initial card starts the round; a tie
        is settled by a coin. */
    method ProcessInitialBattle() returns (ghost coin: int)
      requires currentTurn.ownCardId.Some? && currentTurn.rivalCardId.Some?
      modifies this`currentPlayer, this`turnNumber, this`currentTurn, this`phase, this`initialWinner
      ensures IsSeat(coin)
      ensures State() == Session.InitialBattle(old(State()), coin)
      ensures initialWinner == currentPlayer
    {
      var p1Card := currentTurn.ownCardId.value;
      var p2Card := currentTurn.rivalCardId.value;
      var p1Power := CardPower(p1Card, jokerPower);
      var p2Power := CardPower(p2Card, jokerPower);
      var startingPlayer: int;
      if p1Power > p2Power {
        startingPlayer := 1;
      } else if p2Power > p1Power {
        startingPlayer := 2;
      } else {
        startingPlayer :| IsSeat(startingPlayer) by {
          assert IsSeat(1);
        }
      }
      coin := startingPlayer;
      currentPlayer := startingPlayer;
      turnNumber := 2;
      initialWinner := startingPlayer;
      ResetCurrentTurn();
      phase := CardSelectionOwn;
    }

    /** handleOwnCardSelection: the acting seat turns up one of its own cards. */
    method HandleOwnCardSelection(seat: int, slot: int)
      requires Session.WellFormed(State()) && IsSeat(seat)
      modifies this`players, this`currentTurn, this`phase
      ensures State() == Session.SelectOwn(old(State()), seat, slot)
    {
      if slot !in players[seat].hand || players[seat].hand[slot] == Joker {
        return;
      }
      var cardId := players[seat].hand[slot];
      players := players[seat := players[seat].(hand := players[seat].hand - {slot})];
      players := players[seat := players[seat].(revealed := players[seat].revealed[slot := cardId])];
      currentTurn := currentTurn.(ownCardId := Some(cardId));
      currentTurn := currentTurn.(ownSlot := Some(slot));
      currentTurn := currentTurn.(ownCardSelected := true);
      phase := CardSelectionRival;
    }

    /** handleRivalCardSelection: the acting seat turns up one of the other
        seat's cards, and the battle is fought at once. */
    method HandleRivalCardSelection(seat: int, slot: int) returns (shown: Option<map<int, int>>, ghost d: Deal)
      requires Session.WellFormed(State()) && IsSeat(seat) && seat == currentPlayer
      requires currentTurn.ownCardId.Some?
      modifies this
      ensures Session.ValidDeal(d)
      ensures State() == Session.SelectRival(old(State()), seat, slot, d)
      ensures shown == Session.RivalSelectionReveal(old(State()), seat, slot)
      ensures initialWinner == old(initialWinner)
    {
      var rivalId := if seat == 1 then 2 else 1;
      if slot !in players[rivalId].hand || players[rivalId].hand[slot] == Joker {
        shown := None;
        d := Session.SomeDeal();
        return;
      }
      ghost var s0 := State();
      var cardId := players[rivalId].hand[slot];
      players := players[rivalId := players[rivalId].(hand := players[rivalId].hand - {slot})];
      players := players[rivalId := players[rivalId].(revealed := players[rivalId].revealed[slot := cardId])];
      assert players == s0.players[rivalId := Session.RevealSlot(s0.players[rivalId], slot)];
      currentTurn := currentTurn.(rivalCardId := Some(cardId));
      currentTurn := currentTurn.(rivalSlot := Some(slot));
      currentTurn := currentTurn.(rivalCardSelected := true);
      phase := Battle;
      assert State() == Session.WithPlayer(s0, rivalId, Session.RevealSlot(s0.players[rivalId], slot)).(
        currentTurn := s0.currentTurn.(rivalCardId := Some(cardId), rivalSlot := Some(slot), rivalCardSelected := true),
        phase := Battle);
      shown, d := ProcessBattle();
    }

    /** processBattle: record the result, show the rival's hand when the acting
        seat played Dr. Manhattan, then either wait for the power choice or
        advance the turn. */
    method ProcessBattle() returns (shown: Option<map<int, int>>, ghost d: Deal)
      requires 1 in players && 2 in players && IsSeat(currentPlayer)
      requires currentTurn.ownCardId.Some? && currentTurn.rivalCardId.Some?
      modifies this
      ensures Session.ValidDeal(d)
      ensures State() == Session.ResolveBattle(old(State()), d)
      ensures shown == (if old(currentTurn).ownCardId.value == DrManhattan
                         then Some(old(players)[Other(old(currentPlayer))].hand) else None)
      ensures initialWinner == old(initialWinner)
    {
      ghost var s0 := State();
      var actor := currentPlayer;
      var rivalPlayer := if actor == 1 then 2 else 1;
      var ownCard := currentTurn.ownCardId.value;
      var rivalCard := currentTurn.rivalCardId.value;
      var ownPower := CardPower(ownCard, jokerPower);
      var rivalPower := CardPower(rivalCard, jokerPower);
      shown := None;
      if ownCard == DrManhattan {
        shown := Some(players[rivalPlayer].hand);
      }
      var winner := 0;
      if ownPower > rivalPower {
        winner := actor;
      } else if rivalPower > ownPower {
        winner := rivalPlayer;
      }
      var powerDifference := ownPower - rivalPower;
      if powerDifference < 0 {
        powerDifference := -powerDifference;
      }
      battleResult := Some(BattleResult(
        winner, powerDifference,
        if actor == 1 then ownPower else rivalPower,
        if actor == 1 then rivalPower else ownPower,
        if actor == 1 then ownCard else rivalCard,
        if actor == 1 then rivalCard else ownCard));
      assert battleResult == Some(Session.Outcome(s0));
      assert State() == s0.(battleResult := battleResult);
      if winner == actor {
        phase := PowerChoice;
        d := Session.SomeDeal();
      } else {
        d := NextTurn();
      }
    }

    /** The power_choice message callback registered by onCreate. */
    method OnPowerChoice(seat: int, choice: string) returns (ghost d: Deal)
      requires Valid()
      modifies this
      ensures Session.ValidDeal(d)
      ensures State() == Session.ChoosePower(old(State()), seat, choice, d)
      ensures initialWinner == old(initialWinner)
      ensures Valid()
    {
      ghost var s0 := State();
      Session.ConsistentIsWellFormed(s0, initialWinner);
      d := HandlePowerChoice(seat, choice);
      Session.ChoosePowerPreserves(s0, initialWinner, seat, choice, d);
    }

    /** handlePowerChoice: "add" adds the last battle's gap to the chooser's
        points, any other choice subtracts it; then the turn advances. */
    method HandlePowerChoice(seat: int, choice: string) returns (ghost d: Deal)
      requires Session.WellFormed(State())
      modifies this
      ensures Session.ValidDeal(d)
      ensures State() == Session.ChoosePower(old(State()), seat, choice, d)
      ensures initialWinner == old(initialWinner)
    {
      d := Session.SomeDeal();
      if !ActionAllowed(phase, currentPlayer, waitingForContinue, seat, PowerChoiceAction) {
        return;
      }
      ghost var s0 := State();
      var powerDifference := battleResult.value.powerDifference;
      if choice == "add" {
        players := players[seat := players[seat].(points := players[seat].points + powerDifference)];
      } else {
        players := players[seat := players[seat].(points := players[seat].points - powerDifference)];
      }
      assert State() == Session.WithPlayer(s0, seat, Session.ApplyPower(s0.players[seat], powerDifference, choice));
      d := NextTurn();
    }

    /** nextTurn: after turn 10 the round ends; otherwise the next actor is the
        current one on an even turn and the other seat on an odd turn. */
    method NextTurn() returns (ghost d: Deal)
      requires 1 in players && 2 in players && IsSeat(currentPlayer)
      modifies this
      ensures Session.ValidDeal(d)
      ensures State() == Session.NextTurn(old(State()), d)
      ensures initialWinner == old(initialWinner)
    {
      ResetCurrentTurn();
      if turnNumber >= LastTurn {
        var verdict;
        verdict, d := EndRound();
        return;
      }
      d := Session.SomeDeal();
      var nextTurnNumber := turnNumber + 1;
      var nextPlayer: int;
      var turn1Winner := currentPlayer;
      if nextTurnNumber in {2, 4, 6, 8, 10} {
        nextPlayer := turn1Winner;
      } else {
        nextPlayer := if turn1Winner == 1 then 2 else 1;
      }
      currentPlayer := nextPlayer;
      turnNumber := nextTurnNumber;
      phase := CardSelectionOwn;
    }

    /** endRound: settle both bets, then test seat 1 and seat 2 in turn for a
        game-ending balance; returns the game-over verdict, if any. */
    method EndRound() returns (verdict: Option<Verdict>, ghost d: Deal)
      requires 1 in players && 2 in players
      modifies this
      ensures Session.ValidDeal(d)
      ensures State() == Session.EndRound(old(State()), d)
      ensures verdict == GameOverVerdict(Session.Settled(old(State()))[1].credits,
                                         Session.Settled(old(State()))[2].credits)
      ensures initialWinner == old(initialWinner)
    {
      ghost var settled := Session.Settled(State());
      var p1Points := players[1].points;
      var p2Points := players[2].points;
      var roundWinner := RoundWinner(p1Points, p2Points);
      var p1Change := CreditChange(1, roundWinner, players[1].currentBet);
      var p2Change := CreditChange(2, roundWinner, players[2].currentBet);
      players := players[1 := players[1].(credits := players[1].credits + p1Change)];
      players := players[2 := players[2].(credits := players[2].credits + p2Change)];
      assert players == settled;
      d := Session.SomeDeal();
      var seat := 1;
      while seat <= 2
        invariant 1 <= seat <= 3
        invariant players == settled
        invariant forall k :: 1 <= k < seat ==> 0 < players[k].credits < WinningCredits
      {
        if players[seat].credits >= WinningCredits {
          verdict := Some(Verdict(seat, RealWinner));
          GameOver();
          return;
        }
        if players[seat].credits <= 0 {
          var winner := if seat == 1 then 2 else 1;
          verdict := Some(Verdict(winner, Busted));
          GameOver();
          return;
        }
        seat := seat + 1;
      }
      verdict := None;
      d := StartNextRound();
    }

    /** gameOver: stop and wait for a continue message. */
    method GameOver()
      modifies this`phase, this`waitingForContinue
      ensures phase == Phase.GameOver && waitingForContinue
    {
      phase := Phase.GameOver;
      waitingForContinue := true;
    }

    /** The continue_game message callback registered by onCreate. */
    method OnContinueGame() returns (ghost d: Deal)
      requires Valid()
      modifies this`players, this`roundNumber, this`turnNumber, this`phase, this`deck, this`jokerPower
      ensures Session.ValidDeal(d)
      ensures State() == Session.Continue(old(State()), d)
      ensures Valid()
    {
      ghost var s0 := State();
      Session.ConsistentIsWellFormed(s0, initialWinner);
      d := HandleContinueGame();
      Session.ContinuePreserves(s0, initialWinner, d);
    }

    /** handleContinueGame: restart whenever the flag is set, from any phase
        and for any sender. */
    method HandleContinueGame() returns (ghost d: Deal)
      requires 1 in players && 2 in players
      modifies this`players, this`roundNumber, this`turnNumber, this`phase, this`deck, this`jokerPower
      ensures Session.ValidDeal(d)
      ensures State() == Session.Continue(old(State()), d)
    {
      if !waitingForContinue {
        d := Session.SomeDeal();
        return;
      }
      d := InitializeGame();
    }

    /** startNextRound. */
    method StartNextRound() returns (ghost d: Deal)
      requires 1 in players && 2 in players
      modifies this`roundNumber, this`turnNumber, this`phase, this`players, this`deck, this`jokerPower, this`currentTurn
      ensures Session.ValidDeal(d)
      ensures State() == Session.StartNextRound(old(State()), d)
    {
      ghost var s0 := State();
      roundNumber := roundNumber + 1;
      turnNumber := 1;
      phase := Betting;
      players := players[1 := players[1].(points := 0)];
      players := players[1 := players[1].(currentBet := 0)];
      ghost var reset1 := s0.players[1 := s0.players[1].(points := 0, currentBet := 0)];
      assert players == reset1;
      players := players[2 := players[2].(points := 0)];
      players := players[2 := players[2].(currentBet := 0)];
      assert players == reset1[2 := s0.players[2].(points := 0, currentBet := 0)];
      assert State() == s0.(roundNumber := s0.roundNumber + 1, turnNumber := 1, phase := Betting,
                            players := s0.players[1 := s0.players[1].(points := 0, currentBet := 0)]
                                                 [2 := s0.players[2].(points := 0, currentBet := 0)]);
      d := DealCards();
      ResetCurrentTurn();
    }

    /** resetCurrentTurn: nothing selected, no slots, no cards. */
    method ResetCurrentTurn()
      modifies this`currentTurn
      ensures currentTurn == Session.EmptyTurn()
    {
      currentTurn := CurrentTurn(false, false, None, None, None, None);
    }
  }
}

=== FILE: rules.dfy ===
/** The pure rules of the game: card power, action gating, battle and round
    comparisons, the game-over test, the turn order, and the counting facts
    about decks and slot maps that card conservation rests on. */
module Rules {
  import opened Types

  const DeckSize: int := 68
  const HandSize: int := 10
  const CardsLeftAfterDeal: int := DeckSize - 2 * HandSize
  const TargetPoints: int := 34
  const StartingCredits: int := 100
  const WinningCredits: int := 1000
  const LastTurn: int := 10

  predicate IsSeat(seat: int) { seat == 1 || seat == 2 }

  /** The opponent of a seat, written as the source writes it: anything but 1 maps to 1. */
  function Other(seat: int): (rival: int)
    ensures IsSeat(seat) ==> IsSeat(rival) && rival != seat
  {
    if seat == 1 then 2 else 1
  }

  // ---------------------------------------------------------------------------
  // Card power

  /** A card's strength this round: its id, except the Joker, whose strength is
      the round's joker power. */
  function CardPower(card: int, jokerPower: int): (power: int)
    ensures card != Joker ==> power == card
    ensures card == Joker ==> power == jokerPower
    ensures 0 <= card < DeckSize && 1 <= jokerPower <= DeckSize ==> 1 <= power <= DeckSize
  {
    if card == Joker then jokerPower else card
  }

  // ---------------------------------------------------------------------------
  // Action gating

  /** Whether `seat` may perform `action` in the current phase. */
  function ActionAllowed(phase: Phase, currentPlayer: int, waitingForContinue: bool,
                         seat: int, action: Action): (ok: bool)
    ensures ok ==> IsSeat(seat)
    ensures ok && action == BetAction ==> phase == Betting
    ensures ok && action == PlayCardAction ==>
      phase == InitialCardSelection || phase == CardSelectionOwn || phase == CardSelectionRival
    ensures ok && action == PowerChoiceAction ==> phase == PowerChoice
    ensures ok && action == ContinueAction ==> waitingForContinue
    ensures ok && phase == GameOver ==> action == ContinueAction
    // outside the initial selection only the acting seat plays cards or chooses
    ensures ok && (action == PowerChoiceAction || (action == PlayCardAction && phase != InitialCardSelection)) ==>
      seat == currentPlayer
    // and every action that meets the conditions above is accepted
    ensures IsSeat(seat) && action == BetAction && phase == Betting ==> ok
    ensures IsSeat(seat) && action == PlayCardAction && phase == InitialCardSelection ==> ok
    ensures (IsSeat(seat) && seat == currentPlayer && action == PlayCardAction &&
             (phase == CardSelectionOwn || phase == CardSelectionRival)) ==> ok
    ensures IsSeat(seat) && seat == currentPlayer && action == PowerChoiceAction && phase == PowerChoice ==> ok
    ensures IsSeat(seat) && action == ContinueAction && waitingForContinue ==> ok
  {
    if seat != 1 && seat != 2 then false
    else
      match action
      case BetAction => phase == Betting
      case PlayCardAction =>
        (phase == InitialCardSelection || phase == CardSelectionOwn || phase == CardSelectionRival) &&
        (phase == InitialCardSelection || seat == currentPlayer)
      case PowerChoiceAction => phase == PowerChoice && seat == currentPlayer
      case ContinueAction => waitingForContinue
  }

  // ---------------------------------------------------------------------------
  // The deck

  /** A multiset holding each card id 0..67 exactly once and nothing else. */
  ghost predicate IsFullDeck(m: multiset<int>)
  {
    forall c :: m[c] == if 0 <= c < DeckSize then 1 else 0
  }

  // ---------------------------------------------------------------------------
  // Slot maps (a seat's hand or revealed cards) and the cards they hold

  /** A valid slot of a hand: 0..HandSize-1. */
  predicate IsSlot(s: int) { 0 <= s < HandSize }

  /** The cards held in slots 0..n-1 of a slot map, with multiplicity. */
  ghost function SlotCards(m: map<int, int>, n: nat): multiset<int>
  {
    if n == 0 then multiset{}
    else SlotCards(m, n - 1) + (if n - 1 in m then multiset{m[n - 1]} else multiset{})
  }

  /** All cards of a slot map whose keys are valid slots. */
  ghost function Cards(m: map<int, int>): multiset<int> { SlotCards(m, HandSize) }

  /** Two slot maps that agree on slots 0..n-1 hold the same cards there. */
  lemma {:induction false} SlotCardsAgree(m1: map<int, int>, m2: map<int, int>, n: nat)
    requires forall k :: 0 <= k < n ==> (k in m1 <==> k in m2)
    requires forall k :: 0 <= k < n && k in m1 ==> m1[k] == m2[k]
    ensures SlotCards(m1, n) == SlotCards(m2, n)
  {
    if n > 0 {
      SlotCardsAgree(m1, m2, n - 1);
    }
  }

  /** Filling slot n adds its card to the cards of slots 0..n-1. */
  lemma SlotCardsPush(m: map<int, int>, n: nat, c: int)
    ensures SlotCards(m[n := c], n + 1) == SlotCards(m, n) + multiset{c}
  {
    SlotCardsAgree(m[n := c], m, n);
  }

  /** Adding two multisets to a third in either order gives the same result. */
  lemma MultisetSwap(a: multiset<int>, b: multiset<int>, c: multiset<int>)
    ensures (a + b) + c == (a + c) + b
  {
  }

  /** Filling an empty slot adds exactly the card put there. */
  lemma {:induction false} SlotCardsAdd(m: map<int, int>, s: int, c: int, n: nat)
    requires s !in m && 0 <= s < n
    ensures SlotCards(m[s := c], n) == SlotCards(m, n) + multiset{c}
  {
    if s == n - 1 {
      SlotCardsPush(m, s, c);
      assert SlotCards(m, n) == SlotCards(m, n - 1);
    } else {
      var extra := if n - 1 in m then multiset{m[n - 1]} else multiset{};
      var below := SlotCards(m, n - 1);
      calc {
        SlotCards(m[s := c], n);
        SlotCards(m[s := c], n - 1) + extra;
        { SlotCardsAdd(m, s, c, n - 1); }
        (below + multiset{c}) + extra;
        { MultisetSwap(below, multiset{c}, extra); }
        (below + extra) + multiset{c};
      }
    }
  }

  /** Deleting a slot removes exactly the card it held. */
  lemma SlotCardsRemove(m: map<int, int>, s: int, n: nat)
    requires s in m && 0 <= s < n
    ensures SlotCards(m - {s}, n) + multiset{m[s]} == SlotCards(m, n)
  {
    assert (m - {s})[s := m[s]] == m;
    SlotCardsAdd(m - {s}, s, m[s], n);
  }

  /** The hand built by popping k cards off the end of `d`: slot i gets the
      (i+1)-th card from the end. */
  function Popped(d: seq<int>, k: nat): map<int, int>
    requires k <= |d|
  {
    map s | 0 <= s < k :: FromTop(d, s)
  }

  /** The card s positions below the top (the end) of the deck. */
  function FromTop(d: seq<int>, s: int): int
    requires 0 <= s < |d|
  {
    d[|d| - 1 - s]
  }

  /** Popping one more card fills the next slot with the card now on top. */
  lemma PopOneMore(d: seq<int>, k: nat)
    requires k < |d|
    ensures Popped(d, k + 1) == Popped(d, k)[k := FromTop(d, k)]
  {
    assert Popped(d, k + 1).Keys == Popped(d, k).Keys + {k};
  }

  /** A freshly dealt hand: ten cards popped off the end of the deck. */
  function HandFrom(d: seq<int>): map<int, int>
    requires |d| >= HandSize
  {
    Popped(d, HandSize)
  }

  /** A non-empty suffix of a deck is its first card plus the rest. */
  lemma SuffixCards(d: seq<int>, i: nat)
    requires i < |d|
    ensures multiset(d[i..]) == multiset(d[i + 1..]) + multiset{d[i]}
  {
    assert d[i..] == [d[i]] + d[i + 1..];
  }

  /** A sequence that holds its own indices holds each of 0..|s|-1 once. */
  lemma {:induction false} CountingCards(s: seq<int>)
    requires forall k :: 0 <= k < |s| ==> s[k] == k
    ensures forall c :: multiset(s)[c] == if 0 <= c < |s| then 1 else 0
  {
    if s != [] {
      var n := |s| - 1;
      CountingCards(s[..n]);
      assert s == s[..n] + [n];
      assert multiset(s) == multiset(s[..n]) + multiset{n};
    }
  }

  /** The popped hand holds exactly the last k cards of the deck. */
  lemma PoppedCards(d: seq<int>, k: nat)
    requires k <= |d|
    ensures SlotCards(Popped(d, k), k) == multiset(d[|d| - k..])
  {
    TopCards(d, k, k);
  }

  /** Slots 0..n-1 of a popped hand hold the last n cards of the deck. */
  lemma {:induction false} TopCards(d: seq<int>, k: nat, n: nat)
    requires n <= k <= |d|
    ensures SlotCards(Popped(d, k), n) == multiset(d[|d| - n..])
  {
    if n == 0 {
      assert d[|d|..] == [];
    } else {
      var i := |d| - n;
      var hand := Popped(d, k);
      assert n - 1 in hand && hand[n - 1] == FromTop(d, n - 1) == d[i];
      assert |d| - (n - 1) == i + 1;
      calc {
        SlotCards(hand, n);
        SlotCards(hand, n - 1) + multiset{d[i]};
        { TopCards(d, k, n - 1); }
        multiset(d[i + 1..]) + multiset{d[i]};
        { SuffixCards(d, i); }
        multiset(d[i..]);
      }
    }
  }

  // ---------------------------------------------------------------------------
  // Battles

  /** Who starts a round after the initial battle: the seat whose card is
      strictly stronger, or the coin's seat on equal power. */
  function InitialStarter(p1Power: int, p2Power: int, coin: int): (starter: int)
    requires IsSeat(coin)
    ensures IsSeat(starter)
    ensures p1Power > p2Power ==> starter == 1
    ensures p2Power > p1Power ==> starter == 2
    ensures p1Power == p2Power ==> starter == coin
  {
    if p1Power > p2Power then 1 else if p2Power > p1Power then 2 else coin
  }

  /** The winner of a standard battle: the acting seat if its own card is
      stronger, the rival if the rival's card is stronger, 0 on a push. */
  function BattleWinner(actor: int, ownPower: int, rivalPower: int): (winner: int)
    requires IsSeat(actor)
    ensures winner == actor <==> ownPower > rivalPower
    ensures winner == Other(actor) <==> rivalPower > ownPower
    ensures winner == 0 <==> ownPower == rivalPower
  {
    if ownPower > rivalPower then actor
    else if rivalPower > ownPower then Other(actor)
    else 0
  }

  /** The power gap of a battle, never negative. */
  function PowerGap(ownPower: int, rivalPower: int): (gap: int)
    ensures gap >= 0
    ensures gap == ownPower - rivalPower || gap == rivalPower - ownPower
  {
    if ownPower >= rivalPower then ownPower - rivalPower else rivalPower - ownPower
  }

  // ---------------------------------------------------------------------------
  // Round settlement

  /** How far a seat's points are from the target 34. */
  function Distance(points: int): (d: int)
    ensures d >= 0
    ensures d == points - TargetPoints || d == TargetPoints - points
  {
    if points >= TargetPoints then points - TargetPoints else TargetPoints - points
  }

  /** The seat strictly closer to the target, or 0 on equal distance. */
  function RoundWinner(p1Points: int, p2Points: int): (winner: int)
    ensures winner == 1 <==> Distance(p1Points) < Distance(p2Points)
    ensures winner == 2 <==> Distance(p2Points) < Distance(p1Points)
    ensures winner == 0 <==> Distance(p1Points) == Distance(p2Points)
  {
    var d1 := Distance(p1Points);
    var d2 := Distance(p2Points);
    if d1 < d2 then 1 else if d2 < d1 then 2 else 0
  }

  /** A seat's credit change at settlement: the round winner gains its own
      bet, every other seat (the loser, or both on a push) loses its own bet. */
  function CreditChange(seat: int, roundWinner: int, bet: int): (change: int)
    ensures change == bet || change == -bet
    ensures change == bet <==> seat == roundWinner || bet == 0
  {
    if roundWinner == seat then bet else -bet
  }

  /** The game-over test after settlement, seat 1 before seat 2: a seat at or
      above 1000 credits wins outright; a seat at or below 0 loses to the other. */
  function GameOverVerdict(credits1: int, credits2: int): (v: Option<Verdict>)
    ensures v.None? <==> 0 < credits1 < WinningCredits && 0 < credits2 < WinningCredits
    ensures v.Some? ==> IsSeat(v.value.winner)
    ensures v.Some? && v.value.result == RealWinner ==>
      (if v.value.winner == 1 then credits1 else credits2) >= WinningCredits
    ensures v.Some? && v.value.result == Busted ==>
      (if v.value.winner == 1 then credits2 else credits1) <= 0
    // seat 1's condition takes precedence over seat 2's
    ensures credits1 >= WinningCredits ==> v == Some(Verdict(1, RealWinner))
    ensures credits1 <= 0 ==> v == Some(Verdict(2, Busted))
  {
    if credits1 >= WinningCredits then Some(Verdict(1, RealWinner))
    else if credits1 <= 0 then Some(Verdict(2, Busted))
    else if credits2 >= WinningCredits then Some(Verdict(2, RealWinner))
    else if credits2 <= 0 then Some(Verdict(1, Busted))
    else None
  }

  // ---------------------------------------------------------------------------
  // Turn order

  /** The actor of the next turn as the code computes it from the CURRENT
      actor: kept on an even turn number, switched on an odd one. */
  function NextActor(current: int, nextTurn: int): (next: int)
    requires IsSeat(current)
    ensures IsSeat(next)
    ensures 2 <= nextTurn <= LastTurn ==> (next == current <==> nextTurn % 2 == 0)
  {
    if nextTurn in {2, 4, 6, 8, 10} then current else Other(current)
  }

  /** The actor of turn t when seat w won the initial battle, as the
      turn-advancement code produces it. */
  function ActorAt(w: int, t: int): (actor: int)
    requires IsSeat(w) && t >= 2
    ensures IsSeat(actor)
    decreases t
  {
    if t == 2 then w else NextActor(ActorAt(w, t - 1), t)
  }

  /** The order described in the source's comment: the initial winner acts on
      even turns, the other seat on odd turns. */
  function IntendedActor(w: int, t: int): int
  {
    if t % 2 == 0 then w else Other(w)
  }

  /** Closed form of the effective order: the initial winner acts on turns
      2, 5, 6, 9, 10 and the other seat on turns 3, 4, 7, 8. */
  lemma {:induction false} ActorAtClosedForm(w: int, t: int)
    requires IsSeat(w) && 2 <= t <= LastTurn
    ensures ActorAt(w, t) == if t % 4 == 1 || t % 4 == 2 then w else Other(w)
  {
    if t > 2 {
      ActorAtClosedForm(w, t - 1);
    }
  }

  /** The effective order agrees with the commented one exactly on turns
      2, 3, 6, 7 and 10. */
  lemma TurnOrderVersusComment(w: int, t: int)
    requires IsSeat(w) && 2 <= t <= LastTurn
    ensures ActorAt(w, t) == IntendedActor(w, t) <==> t in {2, 3, 6, 7, 10}
  {
    ActorAtClosedForm(w, t);
  }
}

=== FILE: session.dfy ===
/** The session engine as pure state transitions: one function per handler of
    the room, taking the state before the message to the state after it, with
    the random draws (shuffled deck, joker power, tie coin) passed in. The
    class in module Room is proved to implement exactly these transitions;
    the lemmas here state what the transitions promise and that every one of
    them keeps the session invariant `Consistent`. */
module Session {
  import opened Types
  import opened Rules

  // ---------------------------------------------------------------------------
  // Building blocks

  /** A seat's record at the start of a game. */
  function InitialPlayerState(): PlayerState
  {
    PlayerState(StartingCredits, 0, 0, map[], map[])
  }

  /** A pending turn with nothing selected. */
  function EmptyTurn(): CurrentTurn
  {
    CurrentTurn(false, false, None, None, None, None)
  }

  /** The state of a freshly created room, before both seats have joined. */
  function Created(): GameState
  {
    GameState(Init, 1, 1, 1, map[1 := InitialPlayerState(), 2 := InitialPlayerState()],
              None, EmptyTurn(), [], false, 0)
  }

  /** A deal the random source can produce: a permutation of the 68 cards and
      a joker power in 1..68. */
  ghost predicate ValidDeal(d: Deal)
  {
    |d.shuffled| == DeckSize && IsFullDeck(multiset(d.shuffled)) &&
    1 <= d.jokerPower <= DeckSize
  }

  predicate HasSeats(s: GameState) { 1 in s.players && 2 in s.players }

  /** What the handlers need to read the state without failing. */
  predicate WellFormed(s: GameState)
  {
    HasSeats(s) && IsSeat(s.currentPlayer) &&
    (s.phase == CardSelectionRival ==> s.currentTurn.ownCardId.Some?) &&
    (s.phase == PowerChoice ==> s.battleResult.Some?)
  }

  predicate Allowed(s: GameState, seat: int, action: Action)
  {
    ActionAllowed(s.phase, s.currentPlayer, s.waitingForContinue, seat, action)
  }

  function WithPlayer(s: GameState, seat: int, p: PlayerState): GameState
  {
    s.(players := s.players[seat := p])
  }

  /** A slot can be played when it holds a card other than the Joker (the
      source tests the slot's content for truthiness, which rejects card 0). */
  predicate Selectable(p: PlayerState, slot: int)
  {
    slot in p.hand && p.hand[slot] != Joker
  }

  /** Turn the card in `slot` face up: it leaves the hand and is revealed in
      the same slot. */
  function RevealSlot(p: PlayerState, slot: int): PlayerState
    requires slot in p.hand
  {
    p.(hand := p.hand - {slot}, revealed := p.revealed[slot := p.hand[slot]])
  }

  // ---------------------------------------------------------------------------
  // Transitions, one per handler of the room

  /** dealCards: seat 1 takes the last ten cards of the shuffled deck (slot 0
      gets the very last), seat 2 the ten before them; 48 cards stay. */
  function DealCards(s: GameState, d: Deal): GameState
    requires HasSeats(s) && |d.shuffled| == DeckSize
  {
    var rest := d.shuffled[..DeckSize - HandSize];
    s.(deck := d.shuffled[..CardsLeftAfterDeal], jokerPower := d.jokerPower,
       players := s.players[1 := s.players[1].(hand := HandFrom(d.shuffled), revealed := map[])]
                           [2 := s.players[2].(hand := HandFrom(rest), revealed := map[])])
  }

  /** initializeGame: fresh seats, round 1, turn 1, betting, and a new deal.
      The pending turn, the battle result, the current player and the
      continue flag are left as they were. */
  function InitializeGame(s: GameState, d: Deal): GameState
    requires HasSeats(s) && ValidDeal(d)
  {
    DealCards(s.(players := s.players[1 := InitialPlayerState()][2 := InitialPlayerState()],
                 roundNumber := 1, turnNumber := 1, phase := Betting), d)
  }

  /** handlePlaceBet. */
  function PlaceBet(s: GameState, seat: int, amount: int): GameState
    requires WellFormed(s)
  {
    if !Allowed(s, seat, BetAction) then s
    else if amount < 0 || amount > s.players[seat].credits then s
    else
      var s1 := WithPlayer(s, seat, s.players[seat].(currentBet := amount));
      if s1.players[1].currentBet > 0 && s1.players[2].currentBet > 0
      then s1.(phase := InitialCardSelection)
      else s1
  }

  /** processInitialBattle: the stronger initial card (or the coin) decides who
      acts first; turn 2 begins with the own-card selection. */
  function InitialBattle(s: GameState, coin: int): GameState
    requires s.currentTurn.ownCardId.Some? && s.currentTurn.rivalCardId.Some? && IsSeat(coin)
  {
    var p1Power := CardPower(s.currentTurn.ownCardId.value, s.jokerPower);
    var p2Power := CardPower(s.currentTurn.rivalCardId.value, s.jokerPower);
    s.(currentPlayer := InitialStarter(p1Power, p2Power, coin), turnNumber := 2,
       currentTurn := EmptyTurn(), phase := CardSelectionOwn)
  }

  /** handleInitialCardSelection: seat 1's choice is kept in the "own" half of
      the pending turn, seat 2's in the "rival" half; a second choice by the
      same seat overwrites the first (its card stays revealed). */
  function SelectInitial(s: GameState, seat: int, slot: int, coin: int): GameState
    requires WellFormed(s) && IsSeat(seat) && IsSeat(coin)
  {
    if !Selectable(s.players[seat], slot) then s
    else
      var card := s.players[seat].hand[slot];
      var turn := if seat == 1 then s.currentTurn.(ownCardId := Some(card), ownSlot := Some(slot))
                  else s.currentTurn.(rivalCardId := Some(card), rivalSlot := Some(slot));
      var s1 := WithPlayer(s, seat, RevealSlot(s.players[seat], slot)).(currentTurn := turn);
      if turn.ownCardId.Some? && turn.rivalCardId.Some? then InitialBattle(s1, coin) else s1
  }

  /** handleOwnCardSelection. */
  function SelectOwn(s: GameState, seat: int, slot: int): GameState
    requires WellFormed(s) && IsSeat(seat)
  {
    if !Selectable(s.players[seat], slot) then s
    else
      var card := s.players[seat].hand[slot];
      WithPlayer(s, seat, RevealSlot(s.players[seat], slot)).(
        currentTurn := s.currentTurn.(ownCardId := Some(card), ownSlot := Some(slot), ownCardSelected := true),
        phase := CardSelectionRival)
  }

  /** handleRivalCardSelection: the acting seat turns up a card of the other
      seat's hand, and the battle is resolved at once. */
  function SelectRival(s: GameState, seat: int, slot: int, d: Deal): GameState
    requires WellFormed(s) && IsSeat(seat) && s.currentTurn.ownCardId.Some? && ValidDeal(d)
  {
    var rival := Other(seat);
    if !Selectable(s.players[rival], slot) then s
    else
      var card := s.players[rival].hand[slot];
      ResolveBattle(WithPlayer(s, rival, RevealSlot(s.players[rival], slot)).(
        currentTurn := s.currentTurn.(rivalCardId := Some(card), rivalSlot := Some(slot), rivalCardSelected := true),
        phase := Battle), d)
  }

  /** processBattle: record the result; the acting seat chooses the power
      effect if it won, otherwise the turn advances. */
  function ResolveBattle(s: GameState, d: Deal): GameState
    requires HasSeats(s) && IsSeat(s.currentPlayer) && ValidDeal(d)
    requires s.currentTurn.ownCardId.Some? && s.currentTurn.rivalCardId.Some?
  {
    var result := Outcome(s);
    var s1 := s.(battleResult := Some(result));
    if result.winner == s.currentPlayer then s1.(phase := PowerChoice) else NextTurn(s1, d)
  }

  /** The record of the pending battle, with seat 1's power and card first. */
  function Outcome(s: GameState): BattleResult
    requires IsSeat(s.currentPlayer)
    requires s.currentTurn.ownCardId.Some? && s.currentTurn.rivalCardId.Some?
  {
    var actor := s.currentPlayer;
    var ownCard := s.currentTurn.ownCardId.value;
    var rivalCard := s.currentTurn.rivalCardId.value;
    var ownPower := CardPower(ownCard, s.jokerPower);
    var rivalPower := CardPower(rivalCard, s.jokerPower);
    var winner := BattleWinner(actor, ownPower, rivalPower);
    var gap := PowerGap(ownPower, rivalPower);
    if actor == 1 then BattleResult(winner, gap, ownPower, rivalPower, ownCard, rivalCard)
    else BattleResult(winner, gap, rivalPower, ownPower, rivalCard, ownCard)
  }

  /** The hand the Dr. Manhattan card shows to the acting seat when a rival
      selection resolves a battle: the rival's remaining hand, whenever the
      acting seat's own card is card 67, whatever the outcome. */
  function RivalSelectionReveal(s: GameState, seat: int, slot: int): Option<map<int, int>>
    requires HasSeats(s) && s.currentTurn.ownCardId.Some?
  {
    var rival := Other(seat);
    if Selectable(s.players[rival], slot) && s.currentTurn.ownCardId.value == DrManhattan
    then Some(s.players[rival].hand - {slot})
    else None
  }

  /** handlePlayCard: gate, then dispatch on the phase. */
  function PlayCard(s: GameState, seat: int, slot: int, coin: int, d: Deal): GameState
    requires WellFormed(s) && IsSeat(coin) && ValidDeal(d)
  {
    if !Allowed(s, seat, PlayCardAction) then s
    else if s.phase == InitialCardSelection then SelectInitial(s, seat, slot, coin)
    else if s.phase == CardSelectionOwn then SelectOwn(s, seat, slot)
    else SelectRival(s, seat, slot, d)
  }

  /** What a play_card message makes the room send privately to its sender. */
  function PlayCardReveal(s: GameState, seat: int, slot: int): Option<map<int, int>>
    requires WellFormed(s)
  {
    if Allowed(s, seat, PlayCardAction) && s.phase == CardSelectionRival
    then RivalSelectionReveal(s, seat, slot)
    else None
  }

  /** handlePowerChoice: "add" adds the gap to the chooser's points, anything
      else subtracts it; then the turn advances. */
  function ChoosePower(s: GameState, seat: int, choice: string, d: Deal): GameState
    requires WellFormed(s) && ValidDeal(d)
  {
    if !Allowed(s, seat, PowerChoiceAction) then s
    else NextTurn(WithPlayer(s, seat, ApplyPower(s.players[seat], s.battleResult.value.powerDifference, choice)), d)
  }

  /** The chosen power effect on the chooser's points. */
  function ApplyPower(p: PlayerState, gap: int, choice: string): PlayerState
  {
    p.(points := if choice == "add" then p.points + gap else p.points - gap)
  }

  /** nextTurn: clear the pending turn; after turn 10 the round ends, before it
      the next turn starts with the actor NextActor picks. */
  function NextTurn(s: GameState, d: Deal): GameState
    requires HasSeats(s) && IsSeat(s.currentPlayer) && ValidDeal(d)
  {
    var s1 := s.(currentTurn := EmptyTurn());
    if s1.turnNumber >= LastTurn then EndRound(s1, d)
    else
      var next := s1.turnNumber + 1;
      s1.(currentPlayer := NextActor(s1.currentPlayer, next), turnNumber := next, phase := CardSelectionOwn)
  }

  /** The credits after settling a round. */
  function Settled(s: GameState): map<int, PlayerState>
    requires HasSeats(s)
  {
    var p1 := s.players[1];
    var p2 := s.players[2];
    var w := RoundWinner(p1.points, p2.points);
    s.players[1 := p1.(credits := p1.credits + CreditChange(1, w, p1.currentBet))]
             [2 := p2.(credits := p2.credits + CreditChange(2, w, p2.currentBet))]
  }

  /** endRound and gameOver: settle the bets, then either end the game or
      start the next round. */
  function EndRound(s: GameState, d: Deal): GameState
    requires HasSeats(s) && ValidDeal(d)
  {
    var s1 := s.(players := Settled(s));
    if GameOverVerdict(s1.players[1].credits, s1.players[2].credits).Some?
    then s1.(phase := GameOver, waitingForContinue := true)
    else StartNextRound(s1, d)
  }

  /** startNextRound. */
  function StartNextRound(s: GameState, d: Deal): GameState
    requires HasSeats(s) && ValidDeal(d)
  {
    var s1 := s.(roundNumber := s.roundNumber + 1, turnNumber := 1, phase := Betting,
                 players := s.players[1 := s.players[1].(points := 0, currentBet := 0)]
                                     [2 := s.players[2].(points := 0, currentBet := 0)]);
    DealCards(s1, d).(currentTurn := EmptyTurn())
  }

  /** handleContinueGame: only the flag is checked, never the phase or the
      seat, and nothing clears the flag. */
  function Continue(s: GameState, d: Deal): GameState
    requires HasSeats(s) && ValidDeal(d)
  {
    if !s.waitingForContinue then s else InitializeGame(s, d)
  }

  // ---------------------------------------------------------------------------
  // The session invariant

  /** All cards of the session: the deck and both seats' hands and revealed cards. */
  ghost function AllCards(s: GameState): multiset<int>
    requires HasSeats(s)
  {
    multiset(s.deck) +
    SeatCards(s.players[1]) + SeatCards(s.players[2])
  }

  /** The cards a seat holds, in its hand or face up. */
  ghost function SeatCards(p: PlayerState): multiset<int>
  {
    Cards(p.hand) + Cards(p.revealed)
  }

  /** The 68 cards are partitioned over deck, hands and revealed cards. */
  ghost predicate Conserved(s: GameState)
    requires HasSeats(s)
  {
    IsFullDeck(AllCards(s))
  }

  /** A seat's record: credits never negative; while the game is on, credits
      strictly between 0 and 1000 and the bet within them; hand and revealed
      slots disjoint valid slots, covering all ten slots once dealt. */
  ghost predicate PlayerConsistent(p: PlayerState, inPlay: bool, dealt: bool)
  {
    && p.credits >= 0
    && (inPlay ==> 0 < p.credits < WinningCredits && 0 <= p.currentBet <= p.credits)
    && (forall k :: k in p.hand ==> IsSlot(k))
    && (forall k :: k in p.revealed ==> IsSlot(k) && k !in p.hand)
    && (dealt ==> forall k :: IsSlot(k) ==> k in p.hand || k in p.revealed)
  }

  /** What holds in every phase. */
  ghost predicate Core(s: GameState)
  {
    && s.players.Keys == {1, 2}
    && IsSeat(s.currentPlayer)
    && s.roundNumber >= 1
    && 1 <= s.turnNumber <= LastTurn
    && PlayerConsistent(s.players[1], s.phase != GameOver, s.phase != Init)
    && PlayerConsistent(s.players[2], s.phase != GameOver, s.phase != Init)
    && (s.phase != Init ==> 1 <= s.jokerPower <= DeckSize && Conserved(s))
  }

  /** A standard turn in progress: turn 2..10, acted by the seat the turn
      order assigns given the initial winner w, with both bets placed. */
  ghost predicate ActingTurn(s: GameState, w: int)
    requires HasSeats(s)
  {
    2 <= s.turnNumber && IsSeat(w) && s.currentPlayer == ActorAt(w, s.turnNumber) &&
    s.players[1].currentBet > 0 && s.players[2].currentBet > 0
  }

  /** The session invariant, with w the seat that won this round's initial
      battle: the core invariant plus what each phase adds. ROUND_END is
      never entered, and BATTLE occurs only inside a handler. */
  ghost predicate Consistent(s: GameState, w: int)
  {
    && Core(s)
    && s.phase != Battle && s.phase != RoundEnd
    && (s.phase == Betting ==>
          s.turnNumber == 1 && !(s.players[1].currentBet > 0 && s.players[2].currentBet > 0))
    && (s.phase == InitialCardSelection ==>
          s.turnNumber == 1 && s.players[1].currentBet > 0 && s.players[2].currentBet > 0)
    && (s.phase == CardSelectionOwn || s.phase == CardSelectionRival || s.phase == PowerChoice ==>
          ActingTurn(s, w))
    && (s.phase == CardSelectionOwn ==> s.currentTurn == EmptyTurn())
    && (s.phase == CardSelectionRival ==>
          s.currentTurn.ownCardId.Some? && s.currentTurn.rivalCardId.None?)
    && (s.phase == PowerChoice ==>
          s.battleResult.Some? && s.battleResult.value.winner == s.currentPlayer &&
          s.battleResult.value.powerDifference > 0)
    && (s.phase == GameOver ==> s.waitingForContinue)
  }

  lemma ConsistentIsWellFormed(s: GameState, w: int)
    requires Consistent(s, w)
    ensures WellFormed(s)
  {
    assert 1 in s.players.Keys && 2 in s.players.Keys;
  }

  /** The initial winner after a play: a new one when the initial battle was
      just resolved. */
  function WinnerAfter(s: GameState, s': GameState, w: int): int
  {
    if s.phase == InitialCardSelection && s'.phase == CardSelectionOwn then s'.currentPlayer else w
  }

  // ---------------------------------------------------------------------------
  // Cards

  lemma {:induction false} SlotCardsEmpty(n: nat)
    ensures SlotCards(map[], n) == multiset{}
  {
    if n > 0 {
      SlotCardsEmpty(n - 1);
    }
  }

  /** The three parts a deal splits the shuffled deck into hold all its cards. */
  lemma DealtCards(sh: seq<int>)
    requires |sh| == DeckSize
    ensures multiset(sh[..CardsLeftAfterDeal]) + Cards(HandFrom(sh)) +
            Cards(HandFrom(sh[..DeckSize - HandSize])) == multiset(sh)
  {
    var low, mid, high := sh[..CardsLeftAfterDeal], sh[CardsLeftAfterDeal..DeckSize - HandSize], sh[DeckSize - HandSize..];
    PoppedCards(sh, HandSize);
    PoppedCards(sh[..DeckSize - HandSize], HandSize);
    assert sh[..DeckSize - HandSize][DeckSize - 2 * HandSize..] == mid;
    assert sh == low + mid + high;
  }

  /** A deal gives each seat exactly the ten slots 0..9 and nothing revealed,
      leaves 48 cards in the deck, and conserves the 68 cards. */
  lemma DealConserves(s: GameState, d: Deal)
    requires HasSeats(s) && ValidDeal(d)
    ensures var s' := DealCards(s, d);
      && |s'.deck| == CardsLeftAfterDeal
      && s'.players.Keys == s.players.Keys
      && (forall k :: k in s'.players[1].hand <==> IsSlot(k))
      && (forall k :: k in s'.players[2].hand <==> IsSlot(k))
      && s'.players[1].revealed == map[] && s'.players[2].revealed == map[]
      && s'.jokerPower == d.jokerPower
      && Conserved(s')
  {
    var s' := DealCards(s, d);
    DealtCards(d.shuffled);
    SlotCardsEmpty(HandSize);
    assert AllCards(s') == multiset(d.shuffled);
  }

  /** Two distinct slots holding the same card count it twice. */
  lemma SlotCardsTwice(m: map<int, int>, k1: int, k2: int, n: nat)
    requires k1 != k2 && k1 in m && k2 in m && 0 <= k1 < n && 0 <= k2 < n && m[k1] == m[k2]
    ensures SlotCards(m, n)[m[k1]] >= 2
  {
    SlotCardsRemove(m, k1, n);
    SlotCardsRemove(m - {k1}, k2, n);
  }

  /** Once the 68 cards are conserved, no card is held twice: distinct slots
      of a seat's hand hold distinct cards, and so do distinct revealed slots. */
  lemma ConservedDistinct(s: GameState, seat: int, k1: int, k2: int)
    requires HasSeats(s) && Conserved(s) && IsSeat(seat) && k1 != k2 && IsSlot(k1) && IsSlot(k2)
    ensures k1 in s.players[seat].hand && k2 in s.players[seat].hand ==>
      s.players[seat].hand[k1] != s.players[seat].hand[k2]
    ensures k1 in s.players[seat].revealed && k2 in s.players[seat].revealed ==>
      s.players[seat].revealed[k1] != s.players[seat].revealed[k2]
  {
    var p := s.players[seat];
    assert Cards(p.hand) <= AllCards(s) && Cards(p.revealed) <= AllCards(s) by {
      assert SeatCards(p) <= AllCards(s);
    }
    if k1 in p.hand && k2 in p.hand && p.hand[k1] == p.hand[k2] {
      SlotCardsTwice(p.hand, k1, k2, HandSize);
    }
    if k1 in p.revealed && k2 in p.revealed && p.revealed[k1] == p.revealed[k2] {
      SlotCardsTwice(p.revealed, k1, k2, HandSize);
    }
  }

  /** Some deal the random source can produce, used where a handler draws nothing. */
  lemma SomeDeal() returns (d: Deal)
    ensures ValidDeal(d)
  {
    var r := seq(DeckSize, k => k);
    CountingCards(r);
    d := Deal(r, 1);
  }

  /** Replacing a seat's record by one with the same cards that is itself
      consistent keeps the core invariant. */
  lemma WithPlayerKeepsCore(s: GameState, seat: int, p: PlayerState)
    requires Core(s) && IsSeat(seat)
    requires SeatCards(p) == SeatCards(s.players[seat])
    requires PlayerConsistent(p, s.phase != GameOver, s.phase != Init)
    ensures Core(WithPlayer(s, seat, p))
  {
    var s' := WithPlayer(s, seat, p);
    assert s'.players[seat] == p && s'.players[Other(seat)] == s.players[Other(seat)];
    assert AllCards(s') == AllCards(s) by {
      if seat == 1 {
        assert AllCards(s') == multiset(s.deck) + SeatCards(p) + SeatCards(s.players[2]);
      } else {
        assert AllCards(s') == multiset(s.deck) + SeatCards(s.players[1]) + SeatCards(p);
      }
    }
  }

  /** Records that agree on hand and revealed cards hold the same cards. */
  lemma SameSeatCards(p: PlayerState, q: PlayerState)
    requires p.hand == q.hand && p.revealed == q.revealed
    ensures SeatCards(p) == SeatCards(q)
  {
  }

  /** Moving between two phases that agree on whether the game is over and
      on whether cards were dealt keeps the core invariant. */
  lemma PhaseKeepsCore(s: GameState, phase: Phase)
    requires Core(s)
    requires (phase == GameOver) == (s.phase == GameOver) && (phase == Init) == (s.phase == Init)
    ensures Core(s.(phase := phase))
  {
    SameCards(s, s.(phase := phase));
  }

  /** States that agree on the deck and on both seats' hands and revealed
      cards hold the same cards. */
  lemma SameCards(s: GameState, s': GameState)
    requires HasSeats(s) && HasSeats(s') && s'.deck == s.deck
    requires s'.players[1].hand == s.players[1].hand && s'.players[1].revealed == s.players[1].revealed
    requires s'.players[2].hand == s.players[2].hand && s'.players[2].revealed == s.players[2].revealed
    ensures AllCards(s') == AllCards(s)
  {
  }

  /** Turning a card up moves exactly that card from hand to revealed. */
  lemma RevealConserves(p: PlayerState, slot: int)
    requires slot in p.hand && slot !in p.revealed && IsSlot(slot)
    ensures SeatCards(RevealSlot(p, slot)) == SeatCards(p)
  {
    SlotCardsRemove(p.hand, slot, HandSize);
    SlotCardsAdd(p.revealed, slot, p.hand[slot], HandSize);
  }

  /** Turning up a card keeps a seat's record consistent. */
  lemma RevealKeepsPlayer(p: PlayerState, slot: int, inPlay: bool)
    requires PlayerConsistent(p, inPlay, true) && slot in p.hand
    ensures PlayerConsistent(RevealSlot(p, slot), inPlay, true)
  {
  }

  /** Turning up a selectable card keeps the core invariant: the seat's slots
      stay partitioned and the 68 cards conserved; only that seat's hand and
      revealed cards change. */
  lemma RevealKeepsCore(s: GameState, seat: int, slot: int)
    requires Core(s) && s.phase != Init && IsSeat(seat) && Selectable(s.players[seat], slot)
    ensures var s' := WithPlayer(s, seat, RevealSlot(s.players[seat], slot));
      && Core(s')
      && s'.players[seat].hand == s.players[seat].hand - {slot}
      && s'.players[seat].revealed == s.players[seat].revealed[slot := s.players[seat].hand[slot]]
      && s'.players[Other(seat)] == s.players[Other(seat)]
  {
    var p := s.players[seat];
    RevealKeepsPlayer(p, slot, s.phase != GameOver);
    RevealConserves(p, slot);
    WithPlayerKeepsCore(s, seat, RevealSlot(p, slot));
  }

  // ---------------------------------------------------------------------------
  // What each transition promises

  /** A bet is refused, with nothing changed, outside BETTING, from a seat
      other than 1 and 2, or for an amount below 0 or above the seat's
      credits. Otherwise only that seat's bet changes, and the phase moves to
      INITIAL_CARD_SELECTION exactly when both bets are then positive. */
  lemma PlaceBetLaw(s: GameState, seat: int, amount: int)
    requires WellFormed(s)
    ensures var s' := PlaceBet(s, seat, amount);
      var accepted := s.phase == Betting && IsSeat(seat) && 0 <= amount <= s.players[seat].credits;
      && (!accepted ==> s' == s)
      && (accepted ==> s'.players == s.players[seat := s.players[seat].(currentBet := amount)])
      && (accepted ==> s' == s.(players := s'.players, phase := s'.phase))
      && (accepted ==> (s'.phase == InitialCardSelection <==>
                          s'.players[1].currentBet > 0 && s'.players[2].currentBet > 0))
      && (accepted && s'.phase != InitialCardSelection ==> s'.phase == s.phase)
  {
  }

  /** An own selection is a no-op when the slot is empty or holds the Joker.
      Otherwise exactly that card moves from the seat's hand to the same
      revealed slot, the other seat is untouched, the card and slot become the
      pending own choice and the phase becomes CARD_SELECTION_RIVAL. */
  lemma SelectOwnLaw(s: GameState, seat: int, slot: int)
    requires WellFormed(s) && IsSeat(seat)
    ensures !Selectable(s.players[seat], slot) ==> SelectOwn(s, seat, slot) == s
    ensures Selectable(s.players[seat], slot) ==>
      var s', p := SelectOwn(s, seat, slot), s.players[seat];
      && s'.players == s.players[seat := RevealSlot(p, slot)]
      && s'.currentTurn == s.currentTurn.(ownCardId := Some(p.hand[slot]), ownSlot := Some(slot),
                                          ownCardSelected := true)
      && s' == s.(players := s'.players, currentTurn := s'.currentTurn, phase := CardSelectionRival)
  {
  }

  /** An initial selection is a no-op when the slot is empty or holds the
      Joker. Otherwise exactly that card moves from the seat's hand to the same
      revealed slot, the other seat is untouched, and the card fills seat 1's
      "own" half or seat 2's "rival" half of the pending turn, replacing an
      earlier choice; the initial battle is fought once both halves are set. */
  lemma SelectInitialLaw(s: GameState, seat: int, slot: int, coin: int)
    requires WellFormed(s) && IsSeat(seat) && IsSeat(coin)
    ensures !Selectable(s.players[seat], slot) ==> SelectInitial(s, seat, slot, coin) == s
    ensures Selectable(s.players[seat], slot) ==>
      var s', p := SelectInitial(s, seat, slot, coin), s.players[seat];
      var card := p.hand[slot];
      var turn := if seat == 1 then s.currentTurn.(ownCardId := Some(card), ownSlot := Some(slot))
                  else s.currentTurn.(rivalCardId := Some(card), rivalSlot := Some(slot));
      var s1 := s.(players := s.players[seat := RevealSlot(p, slot)], currentTurn := turn);
      && s'.players == s.players[seat := RevealSlot(p, slot)]
      && (turn.ownCardId.Some? && turn.rivalCardId.Some? ==> s' == InitialBattle(s1, coin))
      && (turn.ownCardId.None? || turn.rivalCardId.None? ==> s' == s1)
  {
  }

  /** A rival selection is a no-op when the other seat's slot is empty or holds
      the Joker. Otherwise exactly that card moves from the other seat's hand
      to the same revealed slot, it becomes the pending rival choice, and the
      battle is fought; before turn 10 the battle moves no card, so the seats'
      cards after the message are those after the one move. */
  lemma SelectRivalLaw(s: GameState, seat: int, slot: int, d: Deal)
    requires WellFormed(s) && IsSeat(seat) && s.currentTurn.ownCardId.Some? && ValidDeal(d)
    ensures !Selectable(s.players[Other(seat)], slot) ==> SelectRival(s, seat, slot, d) == s
    ensures Selectable(s.players[Other(seat)], slot) ==>
      var s', rival := SelectRival(s, seat, slot, d), Other(seat);
      var p := s.players[rival];
      var moved := s.players[rival := RevealSlot(p, slot)];
      && s' == ResolveBattle(s.(players := moved,
                                currentTurn := s.currentTurn.(rivalCardId := Some(p.hand[slot]), rivalSlot := Some(slot),
                                                              rivalCardSelected := true),
                                phase := Battle), d)
      && (s.turnNumber < LastTurn ==> s'.players == moved && s'.deck == s.deck)
  {
  }

  /** The Joker can never be played: once every card left in a seat's hand is
      the Joker, neither that seat's own selection nor the other seat's rival
      selection of it changes anything. */
  lemma JokerOnlyHandStalls(s: GameState, seat: int, slot: int, d: Deal)
    requires WellFormed(s) && IsSeat(seat)
    requires forall k :: k in s.players[seat].hand ==> s.players[seat].hand[k] == Joker
    ensures SelectOwn(s, seat, slot) == s
    ensures s.currentTurn.ownCardId.Some? && ValidDeal(d) ==> SelectRival(s, Other(seat), slot, d) == s
  {
    assert Other(Other(seat)) == seat;
  }

  /** The initial battle makes the seat with strictly higher power the acting
      seat (either seat on a tie), sets turn 2, clears the pending turn and
      enters CARD_SELECTION_OWN. */
  lemma InitialBattleLaw(s: GameState, coin: int)
    requires s.currentTurn.ownCardId.Some? && s.currentTurn.rivalCardId.Some? && IsSeat(coin)
    ensures var s' := InitialBattle(s, coin);
      var p1Power := CardPower(s.currentTurn.ownCardId.value, s.jokerPower);
      var p2Power := CardPower(s.currentTurn.rivalCardId.value, s.jokerPower);
      && (p1Power > p2Power ==> s'.currentPlayer == 1)
      && (p2Power > p1Power ==> s'.currentPlayer == 2)
      && IsSeat(s'.currentPlayer)
      && s'.turnNumber == 2 && s'.currentTurn == EmptyTurn() && s'.phase == CardSelectionOwn
      && s'.players == s.players && s'.deck == s.deck
  {
  }

  /** A standard battle: the winner is the acting seat if its power is higher,
      the rival if the rival's is, 0 on equal power; the gap is the absolute
      power difference; the phase becomes POWER_CHOICE exactly when the acting
      seat wins, and otherwise the turn advances. */
  lemma BattleLaw(s: GameState, d: Deal)
    requires HasSeats(s) && IsSeat(s.currentPlayer) && ValidDeal(d)
    requires s.currentTurn.ownCardId.Some? && s.currentTurn.rivalCardId.Some?
    ensures var s' := ResolveBattle(s, d);
      var ownPower := CardPower(s.currentTurn.ownCardId.value, s.jokerPower);
      var rivalPower := CardPower(s.currentTurn.rivalCardId.value, s.jokerPower);
      && s'.battleResult.Some?
      && (s'.battleResult.value.winner == s.currentPlayer <==> ownPower > rivalPower)
      && (s'.battleResult.value.winner == Other(s.currentPlayer) <==> rivalPower > ownPower)
      && (s'.battleResult.value.winner == 0 <==> ownPower == rivalPower)
      && s'.battleResult.value.powerDifference >= 0
      && (s'.battleResult.value.powerDifference == ownPower - rivalPower ||
          s'.battleResult.value.powerDifference == rivalPower - ownPower)
      && (s'.phase == PowerChoice <==> ownPower > rivalPower)
      && (ownPower <= rivalPower ==> s' == NextTurn(s.(battleResult := s'.battleResult), d))
  {
    var s1 := s.(battleResult := Some(Outcome(s)));
    if Outcome(s).winner != s.currentPlayer && s.turnNumber >= LastTurn {
      var s2 := s1.(currentTurn := EmptyTurn());
      var s3 := s2.(players := Settled(s2));
      if GameOverVerdict(s3.players[1].credits, s3.players[2].credits).None? {
        assert StartNextRound(s3, d).battleResult == s1.battleResult;
        assert StartNextRound(s3, d).phase == Betting;
      }
    }
  }

  /** Turn advancement always clears the pending turn. From turn 10 on it ends
      the round; before, the turn number grows by exactly one, the acting seat
      is kept on an even turn and switched on an odd one, and the phase
      returns to CARD_SELECTION_OWN. */
  lemma NextTurnLaw(s: GameState, d: Deal)
    requires HasSeats(s) && IsSeat(s.currentPlayer) && ValidDeal(d)
    ensures var s' := NextTurn(s, d);
      && s'.currentTurn == EmptyTurn()
      && (s.turnNumber >= LastTurn ==> s' == EndRound(s.(currentTurn := EmptyTurn()), d))
      && (s.turnNumber < LastTurn ==>
            && s'.turnNumber == s.turnNumber + 1
            && (s.turnNumber >= 1 ==> (s'.currentPlayer == s.currentPlayer <==> s'.turnNumber % 2 == 0))
            && s'.phase == CardSelectionOwn
            && s'.players == s.players && s'.deck == s.deck && s'.roundNumber == s.roundNumber)
  {
    if s.turnNumber >= LastTurn {
      var s1 := s.(currentTurn := EmptyTurn());
      var p1 := Settled(s1);
      if GameOverVerdict(p1[1].credits, p1[2].credits).None? {
        assert NextTurn(s, d).currentTurn == StartNextRound(s1.(players := p1), d).currentTurn;
      }
    }
  }

  /** Settlement: the seat strictly closer to 34 gains its own bet and the
      other loses its own bet; on equal distance both lose their own bet.
      With each bet within its seat's credits, credits stay non-negative. */
  lemma SettlementLaw(s: GameState)
    requires HasSeats(s)
    ensures var p := Settled(s);
      var d1, d2 := Distance(s.players[1].points), Distance(s.players[2].points);
      var b1, b2 := s.players[1].currentBet, s.players[2].currentBet;
      var c1, c2 := s.players[1].credits, s.players[2].credits;
      && p.Keys == s.players.Keys
      && (d1 < d2 ==> p[1].credits == c1 + b1 && p[2].credits == c2 - b2)
      && (d2 < d1 ==> p[1].credits == c1 - b1 && p[2].credits == c2 + b2)
      && (d1 == d2 ==> p[1].credits == c1 - b1 && p[2].credits == c2 - b2)
      && (0 <= b1 <= c1 ==> p[1].credits >= 0)
      && (0 <= b2 <= c2 ==> p[2].credits >= 0)
      && p[1] == s.players[1].(credits := p[1].credits)
      && p[2] == s.players[2].(credits := p[2].credits)
  {
  }

  /** After settlement the game ends exactly when a seat has reached 1000
      credits or dropped to 0 or below; otherwise the next round starts with
      the round number one higher, turn 1, points and bets reset, a fresh
      deal and the phase back at BETTING. */
  lemma EndRoundLaw(s: GameState, d: Deal)
    requires HasSeats(s) && ValidDeal(d)
    ensures var s' := EndRound(s, d);
      var p := Settled(s);
      var v := GameOverVerdict(p[1].credits, p[2].credits);
      && (v.Some? ==> s' == s.(players := p, phase := GameOver, waitingForContinue := true))
      && (v.None? ==>
            && s'.phase == Betting && s'.roundNumber == s.roundNumber + 1 && s'.turnNumber == 1
            && s'.players[1].points == 0 && s'.players[2].points == 0
            && s'.players[1].currentBet == 0 && s'.players[2].currentBet == 0
            && s'.players[1].credits == p[1].credits && s'.players[2].credits == p[2].credits
            && s'.currentTurn == EmptyTurn()
            && s' == DealCards(s.(players := p[1 := p[1].(points := 0, currentBet := 0)]
                                              [2 := p[2].(points := 0, currentBet := 0)],
                                  roundNumber := s.roundNumber + 1, turnNumber := 1,
                                  phase := Betting), d).(currentTurn := EmptyTurn()))
  {
  }

  // ---------------------------------------------------------------------------
  // Every transition keeps the invariant

  lemma CreatedConsistent(w: int)
    ensures Consistent(Created(), w)
  {
  }

  /** The seats' credits are strictly between 0 and 1000. */
  ghost predicate CreditsInRange(s: GameState)
    requires HasSeats(s)
  {
    0 < s.players[1].credits < WinningCredits && 0 < s.players[2].credits < WinningCredits
  }

  /** A fresh deal onto seats with credits in range and no bets yields a
      consistent BETTING state. */
  lemma DealKeepsConsistent(s: GameState, w: int, d: Deal)
    requires s.players.Keys == {1, 2} && ValidDeal(d) && s.phase == Betting
    requires IsSeat(s.currentPlayer) && s.roundNumber >= 1 && s.turnNumber == 1
    requires CreditsInRange(s) && s.players[1].currentBet == 0 && s.players[2].currentBet == 0
    ensures Consistent(DealCards(s, d), w)
  {
    DealConserves(s, d);
  }

  lemma InitializePreserves(s: GameState, w: int, d: Deal)
    requires Consistent(s, w) && ValidDeal(d)
    ensures Consistent(InitializeGame(s, d), w)
  {
    var s1 := s.(players := s.players[1 := InitialPlayerState()][2 := InitialPlayerState()],
                 roundNumber := 1, turnNumber := 1, phase := Betting);
    DealKeepsConsistent(s1, w, d);
  }

  lemma ContinuePreserves(s: GameState, w: int, d: Deal)
    requires Consistent(s, w) && ValidDeal(d)
    ensures Consistent(Continue(s, d), w)
  {
    if s.waitingForContinue {
      InitializePreserves(s, w, d);
    }
  }

  lemma PlaceBetPreserves(s: GameState, w: int, seat: int, amount: int)
    requires Consistent(s, w)
    ensures WellFormed(s)
    ensures Consistent(PlaceBet(s, seat, amount), w)
  {
    ConsistentIsWellFormed(s, w);
    var s' := PlaceBet(s, seat, amount);
    if Allowed(s, seat, BetAction) && 0 <= amount <= s.players[seat].credits {
      var p := s.players[seat].(currentBet := amount);
      var s1 := WithPlayer(s, seat, p);
      SameSeatCards(p, s.players[seat]);
      WithPlayerKeepsCore(s, seat, p);
      if s1.players[1].currentBet > 0 && s1.players[2].currentBet > 0 {
        PhaseKeepsCore(s1, InitialCardSelection);
        assert s' == s1.(phase := InitialCardSelection);
        SelectionConsistent(s', w);
      } else {
        assert s' == s1;
        BettingConsistent(s', w);
      }
    } else {
      assert s' == s;
    }
  }

  /** A BETTING state on turn 1 with at most one bet placed is consistent. */
  lemma BettingConsistent(s: GameState, w: int)
    requires Core(s) && s.phase == Betting && s.turnNumber == 1
    requires !(s.players[1].currentBet > 0 && s.players[2].currentBet > 0)
    ensures Consistent(s, w)
  {
  }

  /** An INITIAL_CARD_SELECTION state on turn 1 with both bets placed is consistent. */
  lemma SelectionConsistent(s: GameState, w: int)
    requires Core(s) && s.phase == InitialCardSelection && s.turnNumber == 1
    requires s.players[1].currentBet > 0 && s.players[2].currentBet > 0
    ensures Consistent(s, w)
  {
  }

  lemma StartNextRoundPreserves(s: GameState, w: int, d: Deal)
    requires s.players.Keys == {1, 2} && IsSeat(s.currentPlayer) && s.roundNumber >= 1
    requires CreditsInRange(s) && ValidDeal(d)
    ensures Consistent(StartNextRound(s, d), w)
  {
    var s1 := s.(roundNumber := s.roundNumber + 1, turnNumber := 1, phase := Betting,
                 players := s.players[1 := s.players[1].(points := 0, currentBet := 0)]
                                     [2 := s.players[2].(points := 0, currentBet := 0)]);
    DealKeepsConsistent(s1, w, d);
  }

  lemma EndRoundPreserves(s: GameState, w: int, d: Deal)
    requires Core(s) && s.phase != Init && s.phase != GameOver && ValidDeal(d)
    ensures Consistent(EndRound(s, d), w)
  {
    var s1 := s.(players := Settled(s));
    if GameOverVerdict(s1.players[1].credits, s1.players[2].credits).Some? {
      GameOverConsistent(s, w);
    } else {
      SettlementLaw(s);
      StartNextRoundPreserves(s1, w, d);
    }
  }

  /** Settling the bets and stopping the game keeps the invariant: settlement
      never drives credits below 0 and moves no card. */
  lemma GameOverConsistent(s: GameState, w: int)
    requires Core(s) && s.phase != Init && s.phase != GameOver
    ensures var s1 := s.(players := Settled(s));
      Consistent(s1.(phase := GameOver, waitingForContinue := true), w)
  {
    var s1 := s.(players := Settled(s));
    var s' := s1.(phase := GameOver, waitingForContinue := true);
    SettledRecords(s);
    SameCards(s, s');
    assert PlayerConsistent(s'.players[1], false, true) && PlayerConsistent(s'.players[2], false, true);
    assert Core(s');
  }

  /** Settlement changes only the credits of each seat, and a bet within the
      credits cannot take them below 0. */
  lemma SettledRecords(s: GameState)
    requires HasSeats(s)
    requires 0 <= s.players[1].currentBet <= s.players[1].credits
    requires 0 <= s.players[2].currentBet <= s.players[2].credits
    ensures var p := Settled(s);
      && p.Keys == s.players.Keys
      && p[1] == s.players[1].(credits := p[1].credits) && p[1].credits >= 0
      && p[2] == s.players[2].(credits := p[2].credits) && p[2].credits >= 0
  {
  }

  lemma NextTurnPreserves(s: GameState, w: int, d: Deal)
    requires Core(s) && ActingTurn(s, w) && ValidDeal(d)
    requires s.phase == Battle || s.phase == PowerChoice
    ensures Consistent(NextTurn(s, d), w)
  {
    var s1 := s.(currentTurn := EmptyTurn());
    assert AllCards(s1) == AllCards(s);
    if s1.turnNumber >= LastTurn {
      EndRoundPreserves(s1, w, d);
    } else {
      var s' := NextTurn(s, d);
      assert AllCards(s') == AllCards(s);
      assert s'.currentPlayer == ActorAt(w, s'.turnNumber);
    }
  }

  lemma SelectInitialPreserves(s: GameState, w: int, seat: int, slot: int, coin: int)
    requires Consistent(s, w) && s.phase == InitialCardSelection && IsSeat(seat) && IsSeat(coin)
    ensures WellFormed(s)
    ensures var s' := SelectInitial(s, seat, slot, coin);
      Consistent(s', WinnerAfter(s, s', w))
  {
    ConsistentIsWellFormed(s, w);
    if Selectable(s.players[seat], slot) {
      RevealKeepsCore(s, seat, slot);
      var card := s.players[seat].hand[slot];
      var turn := if seat == 1 then s.currentTurn.(ownCardId := Some(card), ownSlot := Some(slot))
                  else s.currentTurn.(rivalCardId := Some(card), rivalSlot := Some(slot));
      var s1 := WithPlayer(s, seat, RevealSlot(s.players[seat], slot)).(currentTurn := turn);
      assert AllCards(s1) == AllCards(WithPlayer(s, seat, RevealSlot(s.players[seat], slot)));
      if turn.ownCardId.Some? && turn.rivalCardId.Some? {
        var s' := InitialBattle(s1, coin);
        assert AllCards(s') == AllCards(s1);
        assert ActorAt(s'.currentPlayer, 2) == s'.currentPlayer;
      }
    }
  }

  lemma SelectOwnPreserves(s: GameState, w: int, seat: int, slot: int)
    requires Consistent(s, w) && s.phase == CardSelectionOwn && seat == s.currentPlayer
    ensures WellFormed(s) && IsSeat(seat)
    ensures Consistent(SelectOwn(s, seat, slot), w)
  {
    ConsistentIsWellFormed(s, w);
    if Selectable(s.players[seat], slot) {
      RevealKeepsCore(s, seat, slot);
      var s0 := WithPlayer(s, seat, RevealSlot(s.players[seat], slot));
      var s' := SelectOwn(s, seat, slot);
      assert AllCards(s') == AllCards(s0);
    }
  }

  lemma SelectRivalPreserves(s: GameState, w: int, seat: int, slot: int, d: Deal)
    requires Consistent(s, w) && s.phase == CardSelectionRival && seat == s.currentPlayer && ValidDeal(d)
    ensures WellFormed(s) && IsSeat(seat)
    ensures Consistent(SelectRival(s, seat, slot, d), w)
  {
    ConsistentIsWellFormed(s, w);
    var rival := Other(seat);
    if Selectable(s.players[rival], slot) {
      RevealKeepsCore(s, rival, slot);
      var card := s.players[rival].hand[slot];
      var s0 := WithPlayer(s, rival, RevealSlot(s.players[rival], slot));
      var s1 := s0.(
        currentTurn := s.currentTurn.(rivalCardId := Some(card), rivalSlot := Some(slot), rivalCardSelected := true),
        phase := Battle);
      assert AllCards(s1) == AllCards(s0);
      assert Core(s1) && ActingTurn(s1, w);
      ResolvePreserves(s1, w, d);
    }
  }

  lemma ResolvePreserves(s: GameState, w: int, d: Deal)
    requires Core(s) && ActingTurn(s, w) && s.phase == Battle && ValidDeal(d)
    requires s.currentTurn.ownCardId.Some? && s.currentTurn.rivalCardId.Some?
    ensures Consistent(ResolveBattle(s, d), w)
  {
    var result := Outcome(s);
    var s1 := s.(battleResult := Some(result));
    SameCards(s1, s);
    assert Core(s1) && ActingTurn(s1, w);
    if result.winner == s.currentPlayer {
      var s' := s1.(phase := PowerChoice);
      SameCards(s', s1);
      assert result.powerDifference > 0;
    } else {
      NextTurnPreserves(s1, w, d);
    }
  }

  lemma PlayCardPreserves(s: GameState, w: int, seat: int, slot: int, coin: int, d: Deal)
    requires Consistent(s, w) && IsSeat(coin) && ValidDeal(d)
    ensures WellFormed(s)
    ensures var s' := PlayCard(s, seat, slot, coin, d);
      Consistent(s', WinnerAfter(s, s', w))
  {
    ConsistentIsWellFormed(s, w);
    if Allowed(s, seat, PlayCardAction) {
      if s.phase == InitialCardSelection {
        SelectInitialPreserves(s, w, seat, slot, coin);
      } else if s.phase == CardSelectionOwn {
        SelectOwnPreserves(s, w, seat, slot);
      } else {
        SelectRivalPreserves(s, w, seat, slot, d);
      }
    }
  }

  lemma ChoosePowerPreserves(s: GameState, w: int, seat: int, choice: string, d: Deal)
    requires Consistent(s, w) && ValidDeal(d)
    ensures WellFormed(s)
    ensures Consistent(ChoosePower(s, seat, choice, d), w)
  {
    ConsistentIsWellFormed(s, w);
    if Allowed(s, seat, PowerChoiceAction) {
      assert s.phase == PowerChoice && seat == s.currentPlayer;
      PowerAppliedPreserves(s, w, choice, d);
      assert ChoosePower(s, seat, choice, d) ==
        NextTurn(WithPlayer(s, seat, ApplyPower(s.players[seat], s.battleResult.value.powerDifference, choice)), d);
    } else {
      assert ChoosePower(s, seat, choice, d) == s;
    }
  }

  /** Applying the won power to the acting seat's points and moving on keeps
      the invariant. */
  lemma PowerAppliedPreserves(s: GameState, w: int, choice: string, d: Deal)
    requires Core(s) && ActingTurn(s, w) && s.phase == PowerChoice && s.battleResult.Some? && ValidDeal(d)
    ensures var seat := s.currentPlayer;
      Consistent(NextTurn(WithPlayer(s, seat, ApplyPower(s.players[seat], s.battleResult.value.powerDifference, choice)), d), w)
  {
    var seat := s.currentPlayer;
    var p := ApplyPower(s.players[seat], s.battleResult.value.powerDifference, choice);
    var s1 := WithPlayer(s, seat, p);
    SameSeatCards(p, s.players[seat]);
    WithPlayerKeepsCore(s, seat, p);
    assert s1.players[Other(seat)] == s.players[Other(seat)];
    assert ActingTurn(s1, w);
    NextTurnPreserves(s1, w, d);
  }
}

=== FILE: types.dfy ===
/** Data model of a game session: the phase enumeration, the per-seat record,
    the pending turn and the last battle result, as declared in src/types.ts. */
module Types {

  datatype Option<+T> = None | Some(value: T)

  /** The stages of a session, in the order the engine walks through them;
      RoundEnd is declared but never assigned, since settlement leads
      straight to GameOver or to Betting. */
  datatype Phase =
    | Init
    | Betting
    | InitialCardSelection
    | CardSelectionOwn
    | CardSelectionRival
    | Battle
    | PowerChoice
    | RoundEnd
    | GameOver

  /** Card identifiers with special behaviour. */
  const Joker: int := 0
  const DrManhattan: int := 67

  /** One seat's record. `hand` and `revealed` map a slot (0..9) to a card id. */
  datatype PlayerState = PlayerState(
    credits: int,
    points: int,
    currentBet: int,
    hand: map<int, int>,
    revealed: map<int, int>)

  /** The most recently resolved standard battle; read by the power choice. */
  datatype BattleResult = BattleResult(
    winner: int,
    powerDifference: int,
    p1Power: int,
    p2Power: int,
    p1Card: int,
    p2Card: int)

  /** The in-flight turn's selections; `None` is the source's `null`. */
  datatype CurrentTurn = CurrentTurn(
    ownCardSelected: bool,
    rivalCardSelected: bool,
    ownSlot: Option<int>,
    rivalSlot: Option<int>,
    ownCardId: Option<int>,
    rivalCardId: Option<int>)

  /** The whole session state, one field per field of the source's GameState. */
  datatype GameState = GameState(
    phase: Phase,
    currentPlayer: int,
    roundNumber: int,
    turnNumber: int,
    players: map<int, PlayerState>,
    battleResult: Option<BattleResult>,
    currentTurn: CurrentTurn,
    deck: seq<int>,
    waitingForContinue: bool,
    jokerPower: int)

  /** The four inbound actions a seat can send. */
  datatype Action = BetAction | PlayCardAction | PowerChoiceAction | ContinueAction

  /** The two kinds of game-over announced to the seats. */
  datatype GameResult = RealWinner | Busted

  datatype Verdict = Verdict(winner: int, result: GameResult)

  /** The random draws of one deal: the shuffled deck and the joker's power. */
  datatype Deal = Deal(shuffled: seq<int>, jokerPower: int)
}
